=== FILE: README.md ===
# Product resource handlers — a Dafny model

This project models the request-decision layer of a small HTTP CRUD service
for one resource, the *product*. Five handlers cover the resource: list
(paginated), get by id, create, sparse update by id, and soft delete by id.
They work over a PostgreSQL products table whose declaration fixes the
constraints:
- the id is a `uuid` primary key generated by the store;
- the SKU is unique;
- name is `varchar(255)` and SKU is `varchar(50)`;
- name, SKU, price and stock are declared not null;
- the creation and update times have no column default: the ORM sets them
  from its own reading of the clock before it sends each statement.

Each handler is a pure function. It takes the table, the decoded request and
its environment, and returns the status code, the response body and the table
afterwards. The environment is the clock (`now`), the UUID the store would
generate, and which store calls fail. The database becomes an in-memory table
(`Store.Store`): a map from UUID to row, plus the order in which an unordered
scan returns the rows. The model keeps the checks in the order the source
makes them and keeps its fixed error messages.

The model also carries what the column types do to the values written:
- `Uuids.Parse`: a path id is read as `uuid` input, so digits in either case (chosen digit by digit), braces and missing hyphens name the same row, and nothing else is accepted.
- `Models.VarcharValue`: a `varchar(n)` value keeps at most `n` characters. An excess made only of spaces is cut off, any other excess is an error, and a NUL character is always an error.
- `Models.StoredTime`: timestamps keep microseconds.
- `Models.StoredPrice`: the price column is `numeric`, which has no negative zero, so a price of -0 comes back as 0.

Files:
- `wrappers.dfy`: `Option` (a JSON key that is absent or null) and `Result`.
- `uuid.dfy`: the `uuid` type, the texts its input accepts, and their spellings.
- `models.dfy`: the `Product` row, Go's 64-bit `int`, a price as `float64` bits, the column widths, and the stored forms of text and times.
- `store.dfy`: the table and its constraints (`Store.Valid`), plus the five store calls the handlers make: lookup, paginated scan, insert, partial update and soft-delete mark.
- `pagination.dfy`: page normalisation and the offset, including the overflow described under Findings.
- `handlers.dfy`: the five handlers, the create input, and the sparse update map.
- `properties.dfy`: the routing table, invariants over any sequence of requests, and lemmas that relate several requests.

Three behaviours of the code are easy to miss:
- A soft delete does not hide the row. The deletion mark is a plain nullable timestamp, and no handler filters on it. So get, list, update and delete all still find a deleted row. `Properties.GetAfterDelete` shows that a read right after a delete answers 200, not 404. `Properties.GetAfterCreate` shows the same for a product created with `isActive: false`.
- Get answers only 200 or 404. Every failure of the lookup becomes 404 "product not found". That includes a store fault and an id that is not a UUID. Update and delete treat lookup failures the same way.
- A delete is an update of the `deleted_at` column, so it also refreshes `updatedAt`. Deleting a row that is already deleted succeeds again with 204 and moves its deletion mark (`Properties.DeleteTwice`).

## Model

| member | source | states |
|---|---|---|
| `Uuids.ParseSpell` | internal/models/product.go:7 | every spelling the `uuid` type accepts names the UUID it spells: each of the 32 digits in either case, with or without braces, with a hyphen after any group of four digits or none |
| `Uuids.Parse` | internal/handlers/product.go:37 | the id text the lookup compares with the `uuid` column is read as a UUID only when it holds at least the 32 digits |
| `Uuids.ParseOnlySpellings` | internal/handlers/product.go:37 | every id text that is read as a UUID is a spelling of that UUID: the one with the digit cases, hyphens and braces the text itself uses |
| `Uuids.ParseIsSpelling` | internal/handlers/product.go:37 | a text is read as UUID `u` exactly when it is one of the spellings of `u` |
| `Uuids.ReadSpellingSpells` | internal/models/product.go:7 | the digits and hyphens the `uuid` input reads from byte `i` on spell, in the spelling read, the bytes it returns, and the unread rest follows them |
| `Models.VarcharValue` | internal/models/product.go:8-9 | a text is accepted for a `varchar(n)` column exactly when it has no NUL and whatever lies past `n` characters is spaces; a text that fits is stored unchanged, and a longer one is stored as exactly its first `n` characters, the rest being spaces |
| `Models.VarcharValueStable` | internal/models/product.go:8-9 | a value the column has stored is stored again unchanged |
| `Models.StoredPrice` | internal/models/product.go:10 | a stored price is the given one, except that negative zero comes back as zero |
| `Models.StoredPriceStable` | internal/models/product.go:10 | a stored price is stored again unchanged |
| `Models.StoredTime` | internal/models/product.go:12-14 | a stored time is a whole number of microseconds, at most the given time and less than a microsecond before it |
| `Models.StoredMark` | internal/models/product.go:14 | a deletion mark is stored exactly when given, cut to microseconds |
| `Models.StoredAsKeeps` | internal/models/product.go:6-15 | the stored row keeps the record's id, stock and activity, keeps its price unless that is negative zero (then it is zero), satisfies the column constraints, and keeps name and SKU when they fit their columns |
| `Store.Find` | internal/handlers/product.go:37 | a lookup succeeds exactly when the store is reachable and the path id reads as a UUID that is a key; it returns that row, soft-deleted or not |
| `Store.Window` | internal/handlers/product.go:49-53 | the ids served for an offset and limit are the scan order's ids starting at that offset, never more than the limit and never past the end |
| `Store.RowsOf` | internal/handlers/product.go:53 | listing ids yields the rows under them, in order, one per id when every id has a row |
| `Store.Scan` | internal/handlers/product.go:53 | a paginated scan fails only on a store fault; otherwise it returns at most `limit` rows, namely the rows at scan positions offset, offset+1, … |
| `Store.Insert` | internal/handlers/product.go:92-97 | an insert succeeds exactly when the store is reachable, name and SKU are accepted by their columns, the generated id is unused and no row (deleted or not) has the stored SKU; on success the row is appended, every other row is untouched, the returned record is the given one with the new id and both times set to now, the stored row is its column form, and the constraints still hold |
| `Store.Mismatch` | internal/handlers/product.go:140 | the store's type check on a partial update: names a field whose new value has the wrong type exactly when there is one; no handler reaches it, since `Handlers.BuildUpdates` always builds a well-typed map |
| `Store.Apply` | internal/handlers/product.go:140 | after a partial update every column named in the map holds its new value and every other column its old one; id, creation time and deletion mark are kept and `updatedAt` is the given stamp |
| `Store.CoerceUpdates` | internal/models/product.go:8-9 | an update map is accepted exactly when its name and SKU are accepted by their columns; it keeps the same keys, with name, SKU and price in their stored forms and stock unchanged |
| `Store.ReplaceRow` | internal/handlers/product.go:140 | replacing one row changes no other row and no key, and keeps the constraints when the new row fits them |
| `Store.UpdateRow` | internal/handlers/product.go:140 | a partial update fails exactly on a fault, a mistyped value, a value its column rejects or a stored SKU used by another row; otherwise only the target row changes, to the map applied with the update time cut to microseconds, and the constraints still hold |
| `Store.MarkDeleted` | internal/handlers/product.go:156-157 | marking a row deleted sets its deletion time and `updatedAt` to now cut to microseconds, changes nothing else, removes no row and keeps the constraints |
| `Pagination.NormalizePage` | internal/handlers/product.go:45-48 | a missing, unparseable or non-positive page becomes 1; any other page is kept |
| `Pagination.NormalizePageIdempotent` | internal/handlers/product.go:45-48 | normalising a normalised page changes nothing |
| `Pagination.Offset` | internal/handlers/product.go:49-50 | the intended offset: a non-negative multiple of the page size 10 that counts the records on the preceding pages |
| `Pagination.Wrap64` | internal/handlers/product.go:50 | Go's 64-bit `int` result of an exact value: congruent to it modulo 2^64, and equal to it when it is in range |
| `Pagination.OffsetAsWritten` | internal/handlers/product.go:49-50 | the offset as the code computes it in 64-bit `int`: congruent to the intended offset modulo 2^64, and equal to it whenever that is in range |
| `Pagination.PositionOnOnePage` | internal/handlers/product.go:49-50 | record position k lies in the window of page k/10+1 and of no other page |
| `Pagination.OffsetAsWrittenAgreesUpToLastSafePage` | internal/handlers/product.go:50 | up to page 922337203685477581 the 64-bit offset equals the intended one |
| `Pagination.OffsetAsWrittenWrongBeyondLastSafePage` | internal/handlers/product.go:50 | beyond that page the 64-bit offset is never the intended one |
| `Pagination.OffsetAsWrittenGoesNegative` | internal/handlers/product.go:45-50 | page 922337203685477582 is accepted, but its 64-bit offset is negative and not a multiple of 10 |
| `Pagination.OffsetAsWrittenWrapsToFour` | internal/handlers/product.go:45-50 | page 1844674407370955163 is accepted and its 64-bit offset is 4, where the intended one is 18446744073709551620 |
| `Handlers.ListProducts` | internal/handlers/product.go:44-59 | listing never changes the table; it answers 500 with the store's error exactly on a store fault and 200 otherwise, with at most 10 records, namely the rows at the scan positions of the normalised page |
| `Handlers.StoreOffsetAsWritten` | internal/handlers/product.go:50-53 | the store skips the 64-bit offset when it is positive and nothing when it is not |
| `Handlers.ListProductsAsWritten` | internal/handlers/product.go:44-59 | the same listing with the offset as written: 500 with the store's error exactly on a store fault, otherwise 200 with at most 10 rows, namely those from the scan position the store receives |
| `Handlers.GetProduct` | internal/handlers/product.go:34-42 | a read never changes the table; it answers 200 with exactly the stored row when the path id names a key and the store is reachable, and otherwise 404 "product not found" |
| `Handlers.NewProduct` | internal/handlers/product.go:80-90 | the record to insert carries the four supplied fields, and a deletion mark at `now` exactly when `isActive` is supplied as false |
| `Handlers.CreateProduct` | internal/handlers/product.go:69-98 | a malformed body gives 400 with the decoder's message; a missing name, sku, price or stock gives 400 "missing required fields"; when all four are present every failed insert gives 500 with the store's error; every failure leaves the table unchanged; 201 happens exactly when the insert's conditions hold, and then exactly one row is added; the body is the in-memory record with the inputs exactly as given and times at `now`, and the added row is its stored form |
| `Handlers.BuildUpdates` | internal/handlers/product.go:121-133 | the update map has an entry exactly for each supplied field, holding the supplied value, and is empty exactly when nothing is supplied |
| `Handlers.ApplyBuildUpdates` | internal/handlers/product.go:121-140 | whenever the store accepts the built map, applying it gives each supplied field its stored new value and leaves every other field as it was, with `updatedAt` refreshed |
| `Handlers.WriteUpdate` | internal/handlers/product.go:140-145 | the write answers 204 exactly when the store is reachable, the supplied name and SKU are accepted by their columns and the stored SKU is not another row's; then only the target row changes, and it changes to the patched row; otherwise 500 with the table unchanged |
| `Handlers.UpdateProduct` | internal/handlers/product.go:107-146 | an unknown id gives 404 even with a malformed body; on a found row a malformed body gives 400, an empty update 400 "no fields to update", any failed write 500 with the store's error, all with the table unchanged; 204 happens exactly when the write can succeed, and then only the target row changes, and only in its supplied fields and `updatedAt` |
| `Handlers.DeleteProduct` | internal/handlers/product.go:148-163 | an unknown id gives 404 and, on a found row, a write fault 500 with the store's error, both with the table unchanged; otherwise 204, no row is removed, and the target row keeps every field except a deletion mark and `updatedAt` set to now cut to microseconds |
| `Properties.Handle` | internal/handlers/product.go:14-20 | each route answers only its own status codes, and only a 201 or 204 can change the table |
| `Properties.HandleEvolves` | internal/models/product.go:6-15 | one request keeps the primary-key, unique-SKU and column constraints, removes no row, changes no id or creation time, clears no deletion mark, and adds at most the row under the generated id |
| `Properties.CreateEvolves` | internal/handlers/product.go:92-97 | a create keeps the constraints, removes nothing and adds at most the generated id |
| `Properties.UpdateEvolves` | internal/handlers/product.go:140 | an update keeps the constraints and the set of ids, changes no id or creation time, and clears no deletion mark |
| `Properties.DeleteEvolves` | internal/handlers/product.go:156-157 | a delete keeps the constraints and the set of ids, and clears no deletion mark |
| `Properties.RunEvolves` | internal/models/product.go:6-15 | over any sequence of requests the constraints hold, no row is removed, no id or creation time changes, no deletion mark is cleared, and every new row is under one of the ids generated along the way |
| `Properties.PageOf` | internal/handlers/product.go:49-50 | the page computed for a scan position has that position in its window |
| `Properties.ListServesEveryRow` | internal/handlers/product.go:44-58 | every row, deleted or not, is listed at position k%10 of page k/10+1, where k is its scan position |
| `Properties.ListItem` | internal/handlers/product.go:49-53 | item j of a page is the row at scan position offset+j whenever that position exists |
| `Properties.ListShowsRowOnlyOnItsPage` | internal/handlers/product.go:44-58 | no other page lists that row |
| `Properties.SecondPageOfFifteen` | internal/handlers/product.go:49-53 | with 15 rows, page 2 lists exactly 5 |
| `Properties.ListFallsBackToFirstPage` | internal/handlers/product.go:45-48 | a missing, unparseable or non-positive page answers exactly what page 1 answers |
| `Properties.ListAsWrittenAgreesUpToLastSafePage` | internal/handlers/product.go:44-59 | for a missing page or one up to 922337203685477581, the listing as written answers exactly what the corrected listing answers |
| `Properties.PositiveWrapListsWrongRows` | internal/handlers/product.go:45-53 | on any valid table of 14 or more rows, page 1844674407370955163 lists ten rows starting at scan position 4 as written, where the intended page is empty |
| `Properties.GetAcceptsEverySpelling` | internal/handlers/product.go:34-41 | a read by any accepted spelling of a row's UUID (each digit in either case, braces or not, any allowed hyphens) answers 200 with that row |
| `Properties.GetAnswersSpellings` | internal/handlers/product.go:34-41 | with no store fault, a read answers 200 exactly when its id is a spelling of the UUID of some row |
| `Properties.GetAfterCreate` | internal/handlers/product.go:87-97 | right after a successful create, reading the new id in its canonical form answers 200 with the stored form of the created record: same id, stock and activity, same price unless it was negative zero, name and SKU when they fit, times cut to microseconds; this holds even when it was created inactive |
| `Properties.GetAfterDelete` | internal/handlers/product.go:151-162 | right after a successful delete, reading the id answers 200 with a record that is no longer active and carries the delete's time cut to microseconds |
| `Properties.DeleteTwice` | internal/handlers/product.go:148-162 | a second delete of the same row answers 204 and moves its deletion mark to the second delete's time |
| `Properties.SecondCreateWithSameSkuFails` | internal/models/product.go:9 | once a SKU is in use, another create whose SKU is stored the same way answers 500 and leaves the table unchanged |
| `Properties.GetAfterUpdate` | internal/handlers/product.go:121-145 | right after a successful update, reading the id shows the supplied fields' stored new values and every other field's old value |

## Left out

- Routing and response encoding (`RegisterProductRoutes`, `writeJSON`): net/http and JSON encoding. A response is an abstract (status, body) value. `Properties.Handle` models only which handler serves which route.
- JSON decoding and integer parsing of `page`: a decoded body is a `Result` of per-field `Option`s. A missing or null key is `None`, and a decode error carries its message. The page is an `Option` of a 64-bit integer, where `None` means missing or unparseable. A `stock` outside Go's `int` range is a decode error there.
- The driver's error text: a store failure is a `StoreError` kind, forwarded as the body of a 500. A path id that is not a UUID is the store error `InvalidUuid`, and every handler answers it with 404 like any other failed lookup.
- `Store.Insert`: when several constraints fail at once, it does not promise which error the store reports. Only the status code depends on it.
- Database connection and process startup (`internal/database/connection.go`, `cmd/server/main.go`): environment lookup, the connection, migration and port binding are I/O.
- The order of an unordered scan: the source issues no ORDER BY. The model fixes the order to insertion order (`Store.order`), and an update or delete does not move a row. PostgreSQL keeps no such promise: an updated row can move in a scan. `Properties.ListServesEveryRow` and `Properties.ListShowsRowOnlyOnItsPage` hold for this fixed order only.
- `Handlers.ListProducts`: pages above 922337203685477581 are served with the corrected offset, not with the 64-bit offset the code computes. `Handlers.ListProductsAsWritten` serves every page as written.
- `Handlers.StoreOffsetAsWritten`: the query builder leaves out an OFFSET that is not positive, so a negative 64-bit offset lists from the first row. This comes from the query builder's code, which is not part of this model.
- `Models.StoredTime`: a time is cut down to whole microseconds, as the driver's binary encoding does. PostgreSQL rounds a timestamp given as text to the nearest microsecond instead; which one applies is the driver's choice.
- The clock: one `now` per request serves as both the handler's time and the ORM's timestamps. In the service, the deletion mark set by a create is the handler's own reading of the clock, while the creation and update times are the ORM's reading, taken a moment later in the same process when it builds the statement; the database does not fill them in.
- Prices: a `float64` is only copied, so it is modelled as its 64-bit pattern. The column type comes from the ORM's rule for a float without a precision (`decimal`), which is not part of this model. `Models.StoredPrice` assumes the driver writes the shortest decimal form, so every price except negative zero reads back as the same float.
- `Uuids.Parse`: its own contract states only the length bound. That every accepted text is a spelling of the UUID read is stated by `Uuids.ParseOnlySpellings`, kept out of `Parse`'s contract so that the proofs about the handlers, which call `Parse`, stay small.
- Concurrency: every handler is modelled as one atomic step. Cross-request consistency is left to the database.

## Findings

| source | as written | input that shows it | evidently intended | confidence | as-written member | corrected member |
|---|---|---|---|---|---|---|
| internal/handlers/product.go:45-50 | the offset is `(page - 1) * 10` in Go's 64-bit signed `int`, and only `page < 1` is rejected | `?page=922337203685477582` passes the guard and its offset wraps to -9223372036854775806; `?page=1844674407370955163` wraps to offset 4, so the service lists scan positions 4 to 13 for a page far past the data | the offset is a non-negative multiple of 10, so a page past the data is simply empty | medium, not executed | `Handlers.ListProductsAsWritten` with `Pagination.OffsetAsWritten`, shown by `Pagination.OffsetAsWrittenGoesNegative`, `Pagination.OffsetAsWrittenWrapsToFour` and `Properties.PositiveWrapListsWrongRows` | `Pagination.Offset`, used by `Handlers.ListProducts` |

=== FILE: handlers.dfy ===
/** The five request handlers of the product resource
    (internal/handlers/product.go), each a pure function from the table, the
    decoded request and the environment (clock, generated id, store faults) to
    a status code, a response body and the table afterwards. */
module Handlers {
  import opened Wrappers
  import opened Uuids
  import opened Models
  import opened Store
  import Pagination

  const StatusOK: int := 200
  const StatusCreated: int := 201
  const StatusNoContent: int := 204
  const StatusBadRequest: int := 400
  const StatusNotFound: int := 404
  const StatusInternalServerError: int := 500

  const ProductNotFound: string := "product not found"
  const MissingRequiredFields: string := "missing required fields"
  const NoFieldsToUpdate: string := "no fields to update"

  /** The text of an `{"error": ...}` body: a fixed message, the JSON
      decoder's complaint, or the store's error passed through. */
  datatype ErrorMessage = Fixed(text: string) | DecodeError(detail: string) | StoreFailure(error: StoreError)

  /** A response body. */
  datatype Body = NoBody | ErrorBody(message: ErrorMessage) | One(product: Product) | Many(products: seq<Product>)

  /** What a handler answers, together with the table it leaves behind. */
  datatype Response = Response(status: int, body: Body, store: Store)

  /** The two store calls a by-id handler makes may each fail on their own. */
  datatype Faults = Faults(lookup: Option<string>, write: Option<string>)

  /** The body of `POST /products` after JSON decoding; a key that is missing
      or null is `None`. */
  datatype CreateInput = CreateInput(
    name: Option<string>,
    sku: Option<string>,
    price: Option<Float64Bits>,
    stock: Option<Int64>,
    isActive: Option<bool>)
  {
    predicate HasRequiredFields() {
      name.Some? && sku.Some? && price.Some? && stock.Some?
    }
  }

  /** The body of `PUT /products/{id}` after JSON decoding. */
  datatype UpdateInput = UpdateInput(
    name: Option<string>,
    sku: Option<string>,
    price: Option<Float64Bits>,
    stock: Option<Int64>)
  {
    predicate SuppliesNothing() {
      name.None? && sku.None? && price.None? && stock.None?
    }
  }

  /** `GET /products?page=N`, with the offset computed without overflow. */
  function ListProducts(s: Store, page: Option<Int64>, fault: Option<string>): (r: Response)
    ensures r.store == s
    ensures r.status == StatusOK || r.status == StatusInternalServerError
    ensures r.status == StatusInternalServerError <==> fault.Some?
    ensures r.status == StatusInternalServerError ==>
              r.body == ErrorBody(StoreFailure(Unavailable(fault.value)))
    ensures r.status == StatusOK ==> r.body.Many? && |r.body.products| <= Pagination.PageSize
    ensures r.status == StatusOK && s.Listed() ==>
              var offset := Pagination.Offset(Pagination.NormalizePage(page));
              && |r.body.products| == |Window(s.order, offset, Pagination.PageSize)|
              && forall i | 0 <= i < |r.body.products| ::
                   r.body.products[i] == s.rows[s.order[offset + i]]
  {
    var offset := Pagination.Offset(Pagination.NormalizePage(page));
    match Scan(s, offset, Pagination.PageSize, fault)
    case Failure(e) => Response(StatusInternalServerError, ErrorBody(StoreFailure(e)), s)
    case Success(products) => Response(StatusOK, Many(products), s)
  }

  /** The offset the store receives from the handler as written: the 64-bit
      offset when it is positive; the query builder leaves out an offset that
      is not. */
  function StoreOffsetAsWritten(page: Int64): (o: nat)
    requires page >= 1
    ensures o > 0 ==> o == Pagination.OffsetAsWritten(page) as int
    ensures o == 0 <==> Pagination.OffsetAsWritten(page) <= 0
  {
    var offset := Pagination.OffsetAsWritten(page);
    if offset > 0 then offset as nat else 0
  }

  /** `GET /products?page=N` exactly as written, with the offset in Go `int`
      arithmetic. */
  function ListProductsAsWritten(s: Store, page: Option<Int64>, fault: Option<string>): (r: Response)
    ensures r.store == s
    ensures r.status == StatusOK || r.status == StatusInternalServerError
    ensures r.status == StatusInternalServerError <==> fault.Some?
    ensures r.status == StatusInternalServerError ==>
              r.body == ErrorBody(StoreFailure(Unavailable(fault.value)))
    ensures r.status == StatusOK ==> r.body.Many? && |r.body.products| <= Pagination.PageSize
    ensures r.status == StatusOK && s.Listed() ==>
              var offset := StoreOffsetAsWritten(Pagination.NormalizePage(page));
              && |r.body.products| == |Window(s.order, offset, Pagination.PageSize)|
              && forall i | 0 <= i < |r.body.products| ::
                   r.body.products[i] == s.rows[s.order[offset + i]]
  {
    var offset := StoreOffsetAsWritten(Pagination.NormalizePage(page));
    match Scan(s, offset, Pagination.PageSize, fault)
    case Failure(e) => Response(StatusInternalServerError, ErrorBody(StoreFailure(e)), s)
    case Success(products) => Response(StatusOK, Many(products), s)
  }

  /** The row a path id names in `s`, if any. */
  predicate Names(s: Store, id: string) {
    Parse(id).Some? && Parse(id).value in s.rows
  }

  /** `GET /products/{id}`. Any failure of the lookup, not only a missing row,
      is reported as not found; soft-deleted rows are found like any other. */
  function GetProduct(s: Store, id: string, fault: Option<string>): (r: Response)
    ensures r.store == s
    ensures r.status == StatusOK <==> fault.None? && Names(s, id)
    ensures r.status == StatusOK ==> r.body == One(s.rows[Parse(id).value])
    ensures r.status != StatusOK ==>
              r.status == StatusNotFound && r.body == ErrorBody(Fixed(ProductNotFound))
  {
    match Find(s, id, fault)
    case Failure(_) => Response(StatusNotFound, ErrorBody(Fixed(ProductNotFound)), s)
    case Success(p) => Response(StatusOK, One(p), s)
  }

  /** The record `createProduct` hands to the store: the four required
      fields, and a deletion mark at `now` exactly when `isActive` is supplied
      as false. */
  function NewProduct(input: CreateInput, now: Time): (p: Product)
    requires input.HasRequiredFields()
    ensures p.name == input.name.value && p.sku == input.sku.value
    ensures p.price == input.price.value && p.stock == input.stock.value
    ensures p.deletedAt.Some? <==> input.isActive == Some(false)
    ensures p.deletedAt.Some? ==> p.deletedAt.value == now
  {
    Product(NilUuid, input.name.value, input.sku.value, input.price.value, input.stock.value, 0, 0,
            if input.isActive.Some? && !input.isActive.value then Some(now) else None)
  }

  /** `POST /products`. `freshId` is the UUID the store generates for the
      row. The 201 body is the in-memory record, which keeps the name, SKU and
      times exactly as given; the stored row holds their column forms. */
  function CreateProduct(s: Store, body: Result<CreateInput, string>, freshId: Uuid, now: Time, fault: Option<string>): (r: Response)
    ensures r.status in {StatusCreated, StatusBadRequest, StatusInternalServerError}
    ensures r.status != StatusCreated ==> r.store == s
    ensures body.Failure? ==> r == Response(StatusBadRequest, ErrorBody(DecodeError(body.error)), s)
    ensures body.Success? && !body.value.HasRequiredFields() ==>
              r == Response(StatusBadRequest, ErrorBody(Fixed(MissingRequiredFields)), s)
    ensures body.Success? && body.value.HasRequiredFields() ==>
              var input := body.value;
              (r.status == StatusCreated <==>
                 && fault.None?
                 && VarcharValue(input.name.value, NameMaxLength).Some?
                 && VarcharValue(input.sku.value, SkuMaxLength).Some?
                 && freshId !in s.rows
                 && !SkuTaken(s.rows, VarcharValue(input.sku.value, SkuMaxLength).value))
    ensures body.Success? && body.value.HasRequiredFields() && r.status != StatusCreated ==>
              r.status == StatusInternalServerError && r.body.ErrorBody? && r.body.message.StoreFailure?
    ensures r.status == StatusCreated ==>
              && body.Success? && body.value.HasRequiredFields()
              && Appended(s, r.store, freshId)
              && r.body.One?
              && StoredAs(r.body.product, r.store.rows[freshId])
              && var record := r.body.product;
                 var input := body.value;
                 && record.id == freshId
                 && record.name == input.name.value
                 && record.sku == input.sku.value
                 && record.price == input.price.value
                 && record.stock == input.stock.value
                 && record.createdAt == now && record.updatedAt == now
                 && (record.deletedAt == if input.isActive == Some(false) then Some(now) else None)
    ensures r.status == StatusCreated && s.Valid() ==> r.store.Valid()
  {
    match body
    case Failure(detail) => Response(StatusBadRequest, ErrorBody(DecodeError(detail)), s)
    case Success(input) =>
      if !input.HasRequiredFields() then
        Response(StatusBadRequest, ErrorBody(Fixed(MissingRequiredFields)), s)
      else
        match Insert(s, NewProduct(input, now), freshId, now, fault)
        case Failure(e) => Response(StatusInternalServerError, ErrorBody(StoreFailure(e)), s)
        case Success(inserted) => Response(StatusCreated, One(inserted.record), inserted.store)
  }

  /** The sparse update `updateProductByID` builds: one entry per supplied field. */
  function BuildUpdates(input: UpdateInput): (u: Updates)
    ensures WellTyped(u)
    ensures NameField in u <==> input.name.Some?
    ensures SkuField in u <==> input.sku.Some?
    ensures PriceField in u <==> input.price.Some?
    ensures StockField in u <==> input.stock.Some?
    ensures input.name.Some? ==> u[NameField] == Text(input.name.value)
    ensures input.sku.Some? ==> u[SkuField] == Text(input.sku.value)
    ensures input.price.Some? ==> u[PriceField] == Number(input.price.value)
    ensures input.stock.Some? ==> u[StockField] == Integer(input.stock.value)
    ensures |u| == 0 <==> input.SuppliesNothing()
  {
    var u0: Updates := map[];
    var u1 := if input.name.Some? then u0[NameField := Text(input.name.value)] else u0;
    var u2 := if input.sku.Some? then u1[SkuField := Text(input.sku.value)] else u1;
    var u3 := if input.price.Some? then u2[PriceField := Number(input.price.value)] else u2;
    var u4 := if input.stock.Some? then u3[StockField := Integer(input.stock.value)] else u3;
    assert input.name.Some? ==> NameField in u4;
    u4
  }

  /** The row an update should leave: each supplied field takes the value its
      column stores for the new one, every other field keeps its old value,
      and `updatedAt` is stamped. */
  function Patched(p: Product, input: UpdateInput, now: Time): (q: Product) {
    p.(name := if input.name.Some? then VarcharValue(input.name.value, NameMaxLength).GetOr(p.name) else p.name,
       sku := if input.sku.Some? then VarcharValue(input.sku.value, SkuMaxLength).GetOr(p.sku) else p.sku,
       price := if input.price.Some? then StoredPrice(input.price.value) else p.price,
       stock := input.stock.GetOr(p.stock),
       updatedAt := StoredTime(now))
  }

  /** Whenever the store accepts the built update map, applying it changes
      exactly the supplied fields. */
  lemma ApplyBuildUpdates(p: Product, input: UpdateInput, now: Time)
    ensures var stored := CoerceUpdates(BuildUpdates(input));
            stored.Success? ==> Apply(p, stored.value, StoredTime(now)) == Patched(p, input, now)
  {
    var u := BuildUpdates(input);
    var stored := CoerceUpdates(u);
    if stored.Success? {
      var q := Apply(p, stored.value, StoredTime(now));
      assert Column(q, NameField) == if NameField in stored.value then stored.value[NameField] else Column(p, NameField);
      assert Column(q, SkuField) == if SkuField in stored.value then stored.value[SkuField] else Column(p, SkuField);
      assert Column(q, PriceField) == if PriceField in stored.value then stored.value[PriceField] else Column(p, PriceField);
      assert Column(q, StockField) == if StockField in stored.value then stored.value[StockField] else Column(p, StockField);
    }
  }

  /** The write step of an update: the supplied fields of the row under
      `key` are stored, or the store's failure is answered with 500. */
  function WriteUpdate(s: Store, key: Uuid, input: UpdateInput, now: Time, fault: Option<string>): (r: Response)
    requires key in s.rows
    ensures r.status == StatusNoContent || r.status == StatusInternalServerError
    ensures r.status == StatusInternalServerError ==>
              r.store == s && r.body.ErrorBody? && r.body.message.StoreFailure?
    ensures r.status == StatusNoContent <==>
              && fault.None?
              && (input.name.Some? ==> VarcharValue(input.name.value, NameMaxLength).Some?)
              && (input.sku.Some? ==> VarcharValue(input.sku.value, SkuMaxLength).Some?)
              && !(input.sku.Some? &&
                   SkuTakenByOther(s.rows, VarcharValue(input.sku.value, SkuMaxLength).value, key))
    ensures r.status == StatusNoContent ==>
              && r.body == NoBody
              && OnlyRowChanged(s, r.store, key)
              && r.store.rows[key] == Patched(s.rows[key], input, now)
    ensures r.status == StatusNoContent && s.Valid() ==> r.store.Valid()
  {
    var updates := BuildUpdates(input);
    ApplyBuildUpdates(s.rows[key], input, now);
    match UpdateRow(s, key, updates, now, fault)
    case Failure(e) => Response(StatusInternalServerError, ErrorBody(StoreFailure(e)), s)
    case Success(s') => Response(StatusNoContent, NoBody, s')
  }

  /** `PUT /products/{id}`. The row is looked up before the body is decoded. */
  function UpdateProduct(s: Store, id: string, body: Result<UpdateInput, string>, now: Time, faults: Faults): (r: Response)
    ensures r.status in {StatusNoContent, StatusBadRequest, StatusNotFound, StatusInternalServerError}
    ensures r.status != StatusNoContent ==> r.store == s
    ensures faults.lookup.Some? || !Names(s, id) ==>
              r == Response(StatusNotFound, ErrorBody(Fixed(ProductNotFound)), s)
    ensures faults.lookup.None? && Names(s, id) && body.Failure? ==>
              r == Response(StatusBadRequest, ErrorBody(DecodeError(body.error)), s)
    ensures faults.lookup.None? && Names(s, id) && body.Success? && body.value.SuppliesNothing() ==>
              r == Response(StatusBadRequest, ErrorBody(Fixed(NoFieldsToUpdate)), s)
    ensures faults.lookup.None? && Names(s, id) && body.Success? && !body.value.SuppliesNothing() ==>
              var input := body.value;
              (r.status == StatusNoContent <==>
                 && faults.write.None?
                 && (input.name.Some? ==> VarcharValue(input.name.value, NameMaxLength).Some?)
                 && (input.sku.Some? ==> VarcharValue(input.sku.value, SkuMaxLength).Some?)
                 && !(input.sku.Some? &&
                      SkuTakenByOther(s.rows, VarcharValue(input.sku.value, SkuMaxLength).value, Parse(id).value)))
    ensures faults.lookup.None? && Names(s, id) && body.Success? && !body.value.SuppliesNothing()
            && r.status != StatusNoContent ==>
              r.status == StatusInternalServerError && r.body.ErrorBody? && r.body.message.StoreFailure?
    ensures r.status == StatusNoContent ==>
              && body.Success? && Names(s, id)
              && r.body == NoBody
              && OnlyRowChanged(s, r.store, Parse(id).value)
              && r.store.rows[Parse(id).value] == Patched(s.rows[Parse(id).value], body.value, now)
    ensures r.status == StatusNoContent && s.Valid() ==> r.store.Valid()
  {
    match Find(s, id, faults.lookup)
    case Failure(_) => Response(StatusNotFound, ErrorBody(Fixed(ProductNotFound)), s)
    case Success(_) =>
      var key := Parse(id).value;
      match body
      case Failure(detail) => Response(StatusBadRequest, ErrorBody(DecodeError(detail)), s)
      case Success(input) =>
        if |BuildUpdates(input)| == 0 then Response(StatusBadRequest, ErrorBody(Fixed(NoFieldsToUpdate)), s)
        else WriteUpdate(s, key, input, now, faults.write)
  }

  /** `DELETE /products/{id}`: a soft delete that only marks the row. */
  function DeleteProduct(s: Store, id: string, now: Time, faults: Faults): (r: Response)
    ensures r.status in {StatusNoContent, StatusNotFound, StatusInternalServerError}
    ensures r.status != StatusNoContent ==> r.store == s
    ensures faults.lookup.Some? || !Names(s, id) ==>
              r == Response(StatusNotFound, ErrorBody(Fixed(ProductNotFound)), s)
    ensures faults.lookup.None? && Names(s, id) ==>
              (r.status == StatusNoContent <==> faults.write.None?)
    ensures faults.lookup.None? && Names(s, id) && faults.write.Some? ==>
              r.status == StatusInternalServerError && r.body.ErrorBody? && r.body.message.StoreFailure?
    ensures r.status == StatusNoContent ==>
              && Names(s, id)
              && r.body == NoBody
              && OnlyRowChanged(s, r.store, Parse(id).value)
              && var before := s.rows[Parse(id).value];
                 var after := r.store.rows[Parse(id).value];
                 && after.deletedAt == Some(StoredTime(now)) && after.updatedAt == StoredTime(now)
                 && after.id == before.id && after.name == before.name && after.sku == before.sku
                 && after.price == before.price && after.stock == before.stock
                 && after.createdAt == before.createdAt
    ensures r.status == StatusNoContent && s.Valid() ==> r.store.Valid()
  {
    match Find(s, id, faults.lookup)
    case Failure(_) => Response(StatusNotFound, ErrorBody(Fixed(ProductNotFound)), s)
    case Success(_) =>
      match MarkDeleted(s, Parse(id).value, now, faults.write)
      case Failure(e) => Response(StatusInternalServerError, ErrorBody(StoreFailure(e)), s)
      case Success(s') => Response(StatusNoContent, NoBody, s')
  }
}

=== FILE: models.dfy ===
/** The `Product` record and what its column declarations make of the values
    stored in them (internal/models/product.go). The table lives in
    PostgreSQL, so the column rules are PostgreSQL's. */
module Models {
  import opened Wrappers
  import opened Uuids

  /** Go's `int` on the 64-bit platforms the service targets. */
  newtype Int64 = x: int | -0x8000_0000_0000_0000 <= x < 0x8000_0000_0000_0000

  /** The bit pattern of a Go `float64`. A price is only ever copied from the
      request into the row and back, never computed on, so its bits stand
      for it. */
  newtype Float64Bits = b: int | 0 <= b < 0x1_0000_0000_0000_0000

  /** The bits of negative zero: the sign bit alone. */
  const NegativeZero: Float64Bits := 0x8000_0000_0000_0000

  /** The price column gives back for a stored `float64`. A Go float declared
      without a precision becomes a `decimal` (that is, `numeric`) column. The
      driver writes a float as its shortest decimal form, which reads back as
      the same float. But `numeric` has no negative zero, so -0 comes back as 0. */
  function StoredPrice(b: Float64Bits): (r: Float64Bits)
    ensures r == 0 <==> b == 0 || b == NegativeZero
    ensures r != 0 ==> r == b
  {
    if b == NegativeZero then 0 else b
  }

  /** A stored price is stored again unchanged. */
  lemma StoredPriceStable(b: Float64Bits)
    ensures StoredPrice(StoredPrice(b)) == StoredPrice(b)
  {
  }

  /** An instant, in nanoseconds since the Unix epoch, as Go's clock reads it. */
  type Time = int

  /** `varchar(255)` on the name column and `varchar(50)` on the SKU column. */
  const NameMaxLength: nat := 255
  const SkuMaxLength: nat := 50

  /** The character with code 0, which no text column can hold. */
  const Nul: char := 0 as char

  /** The timestamp columns keep whole microseconds: the instant a row
      records is the Go time with its sub-microsecond part dropped. */
  function StoredTime(t: Time): (r: Time)
    ensures r % 1000 == 0
    ensures r <= t < r + 1000
  {
    t - t % 1000
  }

  /** The stored form of an optional timestamp. */
  function StoredMark(m: Option<Time>): (r: Option<Time>)
    ensures r.Some? <==> m.Some?
    ensures r.Some? ==> r.value == StoredTime(m.value)
  {
    match m
    case None => None
    case Some(t) => Some(StoredTime(t))
  }

  /** All characters of `s` are spaces. */
  predicate IsPadding(s: string) {
    forall i | 0 <= i < |s| :: s[i] == ' '
  }

  /** What a `varchar(n)` column stores for `s`: `s` itself when it fits,
      `s` cut to `n` characters when every character past `n` is a space, and
      nothing (the statement fails) when the excess holds anything else or
      `s` contains NUL. */
  function VarcharValue(s: string, n: nat): (r: Option<string>)
    ensures r.Some? <==> Nul !in s && (|s| <= n || IsPadding(s[n..]))
    ensures r.Some? ==> |r.value| <= n && Nul !in r.value
    ensures r.Some? ==> r.value <= s && IsPadding(s[|r.value|..])
    ensures r.Some? && |s| <= n ==> r.value == s
    ensures r.Some? && |s| > n ==> r.value == s[..n]
  {
    if Nul in s then None
    else if |s| <= n then Some(s)
    else if IsPadding(s[n..]) then Some(s[..n])
    else None
  }

  /** A value the column has stored is stored again unchanged. */
  lemma VarcharValueStable(s: string, n: nat)
    requires VarcharValue(s, n).Some?
    ensures VarcharValue(VarcharValue(s, n).value, n) == VarcharValue(s, n)
  {
  }

  /** One product. Name, SKU, price and stock are declared `not null`, so
      they are plain (never optional) fields here; the deletion mark is the
      only optional one. */
  datatype Product = Product(
    id: Uuid,
    name: string,
    sku: string,
    price: Float64Bits,
    stock: Int64,
    createdAt: Time,
    updatedAt: Time,
    deletedAt: Option<Time>)
  {
    /** A product is active exactly when it carries no deletion mark. */
    predicate Active() {
      deletedAt.None?
    }

    /** Name and SKU are values their `varchar` columns can hold. */
    predicate Storable() {
      && |name| <= NameMaxLength && |sku| <= SkuMaxLength
      && Nul !in name && Nul !in sku
    }
  }

  /** `row` is what the table holds after storing the in-memory record
      `record`: text cut to its column, times cut to microseconds, the price
      as its column gives it back, everything else as it was. */
  ghost predicate StoredAs(record: Product, row: Product) {
    && row.id == record.id
    && VarcharValue(record.name, NameMaxLength) == Some(row.name)
    && VarcharValue(record.sku, SkuMaxLength) == Some(row.sku)
    && row.price == StoredPrice(record.price)
    && row.stock == record.stock
    && row.createdAt == StoredTime(record.createdAt)
    && row.updatedAt == StoredTime(record.updatedAt)
    && row.deletedAt == StoredMark(record.deletedAt)
  }

  /** Storing a record keeps its id, stock and whether it is active, keeps
      its price unless that is negative zero (which comes back as zero), and
      keeps name and SKU whenever they already fit their columns. */
  lemma StoredAsKeeps(record: Product, row: Product)
    requires StoredAs(record, row)
    ensures row.id == record.id && row.stock == record.stock
    ensures record.price != NegativeZero ==> row.price == record.price
    ensures record.price == NegativeZero ==> row.price == 0
    ensures row.Active() <==> record.Active()
    ensures row.Storable()
    ensures |record.name| <= NameMaxLength ==> row.name == record.name
    ensures |record.sku| <= SkuMaxLength ==> row.sku == record.sku
  {
  }
}

=== FILE: pagination.dfy ===
/** Page normalisation for the listing endpoint (`getProducts`). */
module Pagination {
  import opened Wrappers
  import opened Models

  /** Records per page. */
  const PageSize: nat := 10

  /** The largest value of a Go `int`. */
  const Int64Max: int := 0x7fff_ffff_ffff_ffff

  /** The last page whose offset `(page - 1) * PageSize` still fits a Go `int`. */
  const LastSafePage: int := Int64Max / PageSize + 1

  /** The page actually served. `page` is the query parameter after integer
      parsing: `None` when it is missing or not a number in Go's `int` range. A
      missing, unparseable or non-positive page falls back to the first. */
  function NormalizePage(page: Option<Int64>): (n: Int64)
    ensures n >= 1
    ensures page.Some? && page.value >= 1 ==> n == page.value
    ensures page.None? || page.value < 1 ==> n == 1
  {
    if page.None? || page.value < 1 then 1 else page.value
  }

  /** The number of records on the pages before `page`, computed without
      overflow. This is the offset the listing uses. */
  function Offset(page: Int64): (o: nat)
    requires page >= 1
    ensures o % PageSize == 0
    ensures o / PageSize == page as int - 1
  {
    (page as int - 1) * PageSize
  }

  /** Two's-complement truncation to 64 bits, as Go's `int` arithmetic does on
      overflow. */
  function Wrap64(x: int): (r: Int64)
    ensures (r as int - x) % 0x1_0000_0000_0000_0000 == 0
    ensures -0x8000_0000_0000_0000 <= x < 0x8000_0000_0000_0000 ==> r as int == x
  {
    var m := x % 0x1_0000_0000_0000_0000;
    if m < 0x8000_0000_0000_0000 then m as Int64 else (m - 0x1_0000_0000_0000_0000) as Int64
  }

  /** The offset as the handler computes it, in Go `int` arithmetic: it is
      congruent to the intended offset modulo 2^64, and equal to it whenever
      that fits. */
  function OffsetAsWritten(page: Int64): (o: Int64)
    requires page >= 1
    ensures (o as int - Offset(page)) % 0x1_0000_0000_0000_0000 == 0
    ensures Offset(page) <= Int64Max ==> o as int == Offset(page)
  {
    Wrap64((page as int - 1) * PageSize)
  }

  /** Up to the last safe page the handler's arithmetic and the intended
      offset agree. */
  lemma OffsetAsWrittenAgreesUpToLastSafePage(page: Int64)
    requires 1 <= page as int <= LastSafePage
    ensures OffsetAsWritten(page) as int == Offset(page)
  {
  }

  /** Beyond the last safe page the handler's offset is never the intended one. */
  lemma OffsetAsWrittenWrongBeyondLastSafePage(page: Int64)
    requires page as int > LastSafePage
    ensures OffsetAsWritten(page) as int != Offset(page)
  {
  }

  /** `?page=1844674407370955163` wraps all the way round to the small
      positive offset 4, far below the intended one. */
  lemma OffsetAsWrittenWrapsToFour()
    ensures OffsetAsWritten(1844674407370955163) == 4
    ensures Offset(1844674407370955163) == 18446744073709551620
  {
  }

  /** `?page=922337203685477582` passes parsing and the `page < 1` guard, yet
      its offset wraps to a negative number that is not a multiple of the page
      size. */
  lemma OffsetAsWrittenGoesNegative()
    ensures OffsetAsWritten(922337203685477582) < 0
    ensures OffsetAsWritten(922337203685477582) as int % PageSize != 0
  {
  }

  /** Normalising twice changes nothing, and a page that was normalised is
      served as is. */
  lemma NormalizePageIdempotent(page: Option<Int64>)
    ensures NormalizePage(Some(NormalizePage(page))) == NormalizePage(page)
  {
  }

  /** Every record position falls on exactly one page: position `k` is item
      `k % PageSize` of page `k / PageSize + 1`, and no other page's window
      covers it. */
  lemma PositionOnOnePage(k: nat, page: Int64)
    requires page >= 1
    ensures Offset(page) <= k < Offset(page) + PageSize <==> page as int == k / PageSize + 1
  {
  }
}

=== FILE: properties.dfy ===
/** Properties that relate several requests: the routing table of the five
    handlers, what any sequence of requests preserves, and how listing, reading,
    creating and deleting interact. */
module Properties {
  import opened Wrappers
  import opened Uuids
  import opened Models
  import opened Store
  import opened Handlers
  import Pagination

  /** One decoded HTTP request to the product resource. */
  datatype Request =
    | ListRequest(page: Option<Int64>)
    | GetRequest(id: string)
    | CreateRequest(body: Result<CreateInput, string>)
    | UpdateRequest(id: string, update: Result<UpdateInput, string>)
    | DeleteRequest(id: string)

  /** What the surroundings supply to one request: the clock, the UUID the
      store would generate, and which store calls fail. A handler that makes a
      single read uses the lookup fault; `createProduct` uses the write fault. */
  datatype Env = Env(now: Time, freshId: Uuid, faults: Faults)

  /** One request with its environment. */
  datatype Step = Step(request: Request, env: Env)

  /** Routes a request to its handler. Each route answers only the status
      codes of its row in the service's interface table, and only a successful
      create, update or delete changes the table. */
  function Handle(s: Store, req: Request, env: Env): (r: Response)
    ensures req.ListRequest? ==> r.status in {StatusOK, StatusInternalServerError}
    ensures req.GetRequest? ==> r.status in {StatusOK, StatusNotFound}
    ensures req.CreateRequest? ==> r.status in {StatusCreated, StatusBadRequest, StatusInternalServerError}
    ensures req.UpdateRequest? ==>
              r.status in {StatusNoContent, StatusBadRequest, StatusNotFound, StatusInternalServerError}
    ensures req.DeleteRequest? ==> r.status in {StatusNoContent, StatusNotFound, StatusInternalServerError}
    ensures r.store != s ==> r.status in {StatusCreated, StatusNoContent}
  {
    match req
    case ListRequest(page) => ListProducts(s, page, env.faults.lookup)
    case GetRequest(id) => GetProduct(s, id, env.faults.lookup)
    case CreateRequest(body) => CreateProduct(s, body, env.freshId, env.now, env.faults.write)
    case UpdateRequest(id, update) => UpdateProduct(s, id, update, env.now, env.faults)
    case DeleteRequest(id) => DeleteProduct(s, id, env.now, env.faults)
  }

  /** The table after serving `trace` in order. */
  function Run(s: Store, trace: seq<Step>): (s': Store)
    decreases |trace|
  {
    if trace == [] then s
    else Run(Handle(s, trace[0].request, trace[0].env).store, trace[1..])
  }

  /** `s'` is a possible later state of `s`: no row has disappeared, no row
      has changed its id or creation time, and no deletion mark was cleared. */
  ghost predicate Evolves(s: Store, s': Store) {
    && s.rows.Keys <= s'.rows.Keys
    && forall k | k in s.rows ::
         && s'.rows[k].id == s.rows[k].id
         && s'.rows[k].createdAt == s.rows[k].createdAt
         && (!s.rows[k].Active() ==> !s'.rows[k].Active())
  }

  /** A single request keeps the table's constraints and evolves it: rows are
      never removed, ids and creation times never change, soft-deleted rows
      are never reactivated, and at most the row under the generated id is new. */
  lemma HandleEvolves(s: Store, req: Request, env: Env)
    requires s.Valid()
    ensures Handle(s, req, env).store.Valid()
    ensures Evolves(s, Handle(s, req, env).store)
    ensures Handle(s, req, env).store.rows.Keys <= s.rows.Keys + {env.freshId}
  {
    match req
    case ListRequest(_) =>
    case GetRequest(_) =>
    case CreateRequest(body) => CreateEvolves(s, body, env);
    case UpdateRequest(id, update) => UpdateEvolves(s, id, update, env);
    case DeleteRequest(id) => DeleteEvolves(s, id, env);
  }

  /** A create keeps the table's constraints and adds at most the generated id. */
  lemma CreateEvolves(s: Store, body: Result<CreateInput, string>, env: Env)
    requires s.Valid()
    ensures var s' := CreateProduct(s, body, env.freshId, env.now, env.faults.write).store;
            s'.Valid() && Evolves(s, s') && s'.rows.Keys <= s.rows.Keys + {env.freshId}
  {
  }

  /** An update keeps the table's constraints and its set of ids. */
  lemma UpdateEvolves(s: Store, id: string, update: Result<UpdateInput, string>, env: Env)
    requires s.Valid()
    ensures var s' := UpdateProduct(s, id, update, env.now, env.faults).store;
            s'.Valid() && Evolves(s, s') && s'.rows.Keys == s.rows.Keys
  {
  }

  /** A delete keeps the table's constraints and its set of ids. */
  lemma DeleteEvolves(s: Store, id: string, env: Env)
    requires s.Valid()
    ensures var s' := DeleteProduct(s, id, env.now, env.faults).store;
            s'.Valid() && Evolves(s, s') && s'.rows.Keys == s.rows.Keys
  {
  }

  /** Any sequence of requests keeps the table's constraints and evolves it. */
  lemma {:induction false} RunEvolves(s: Store, trace: seq<Step>)
    requires s.Valid()
    ensures Run(s, trace).Valid()
    ensures Evolves(s, Run(s, trace))
    ensures Run(s, trace).rows.Keys <= s.rows.Keys + FreshIds(trace)
    decreases |trace|
  {
    if trace != [] {
      var mid := Handle(s, trace[0].request, trace[0].env).store;
      HandleEvolves(s, trace[0].request, trace[0].env);
      RunEvolves(mid, trace[1..]);
      FreshIdsSplit(trace);
    }
  }

  /** The UUIDs the store would generate over `trace`, one per step. */
  function FreshIds(trace: seq<Step>): set<Uuid> {
    set i | 0 <= i < |trace| :: trace[i].env.freshId
  }

  /** The generated UUIDs of a trace are its first step's and the rest's. */
  lemma FreshIdsSplit(trace: seq<Step>)
    requires trace != []
    ensures FreshIds(trace) == {trace[0].env.freshId} + FreshIds(trace[1..])
  {
    forall id | id in FreshIds(trace[1..])
      ensures id in FreshIds(trace)
    {
      var i :| 0 <= i < |trace[1..]| && trace[1..][i].env.freshId == id;
      assert trace[i + 1].env.freshId == id;
    }
  }

  /** The page on which the record at scan position `k` is listed. */
  function PageOf(k: nat): (page: Int64)
    requires k < Pagination.Int64Max
    ensures page >= 1
    ensures Pagination.Offset(page) <= k < Pagination.Offset(page) + Pagination.PageSize
  {
    (k / Pagination.PageSize + 1) as Int64
  }

  /** Listing reaches every row: the row at scan position `k` is item
      `k % 10` of page `k / 10 + 1`. Soft-deleted rows are listed too. */
  lemma ListServesEveryRow(s: Store, k: nat)
    requires s.Valid()
    requires k < |s.order| && k < Pagination.Int64Max
    ensures var r := ListProducts(s, Some(PageOf(k)), None);
            && r.status == StatusOK
            && k % Pagination.PageSize < |r.body.products|
            && r.body.products[k % Pagination.PageSize] == s.rows[s.order[k]]
  {
    var page := PageOf(k);
    assert Pagination.Offset(page) + k % Pagination.PageSize == k;
    ListItem(s, page, k % Pagination.PageSize);
  }

  /** Item `j` of a page that reaches scan position `offset + j`. */
  lemma ListItem(s: Store, page: Int64, j: nat)
    requires s.Listed()
    requires page >= 1 && j < Pagination.PageSize && Pagination.Offset(page) + j < |s.order|
    ensures var r := ListProducts(s, Some(page), None);
            && r.status == StatusOK
            && j < |r.body.products|
            && r.body.products[j] == s.rows[s.order[Pagination.Offset(page) + j]]
  {
  }

  /** No row is listed on two pages: on any page other than its own, the row
      at scan position `k` does not appear. */
  lemma ListShowsRowOnlyOnItsPage(s: Store, k: nat, page: Int64)
    requires s.Valid()
    requires k < |s.order| && k < Pagination.Int64Max
    requires page >= 1 && page != PageOf(k)
    ensures var r := ListProducts(s, Some(page), None);
            forall i | 0 <= i < |r.body.products| :: r.body.products[i].id != s.order[k]
  {
    var r := ListProducts(s, Some(page), None);
    var offset := Pagination.Offset(page);
    forall i | 0 <= i < |r.body.products|
      ensures r.body.products[i].id != s.order[k]
    {
      Pagination.PositionOnOnePage(k, page);
      assert offset + i != k;
      assert s.order[offset + i] != s.order[k];
    }
  }

  /** With 15 rows the second page holds the last 5 of them. */
  lemma SecondPageOfFifteen(s: Store)
    requires s.Valid() && |s.rows| == 15
    ensures |ListProducts(s, Some(2), None).body.products| == 5
  {
    OrderCountsRows(s);
  }

  /** A missing, unparseable or non-positive page is served as page 1. */
  lemma ListFallsBackToFirstPage(s: Store, page: Option<Int64>, fault: Option<string>)
    requires page.None? || page.value < 1
    ensures ListProducts(s, page, fault) == ListProducts(s, Some(1), fault)
  {
  }

  /** Up to the last safe page the listing as written and the corrected
      listing answer the same. */
  lemma ListAsWrittenAgreesUpToLastSafePage(s: Store, page: Option<Int64>, fault: Option<string>)
    requires page.None? || page.value as int <= Pagination.LastSafePage
    ensures ListProductsAsWritten(s, page, fault) == ListProducts(s, page, fault)
  {
    var n := Pagination.NormalizePage(page);
    Pagination.OffsetAsWrittenAgreesUpToLastSafePage(n);
  }

  /** On any valid table of at least 14 rows, `?page=1844674407370955163`
      lists ten rows starting at scan position 4 as written, where the
      intended page lies past the end of the table and is empty. */
  lemma PositiveWrapListsWrongRows(s: Store)
    requires s.Valid()
    requires 14 <= |s.rows| <= Pagination.Int64Max
    ensures var page := Some(1844674407370955163 as Int64);
            var intended := ListProducts(s, page, None);
            var written := ListProductsAsWritten(s, page, None);
            && intended.body.products == []
            && |written.body.products| == Pagination.PageSize
            && written.body.products[0] == s.rows[s.order[4]]
  {
    OrderCountsRows(s);
    Pagination.OffsetAsWrittenWrapsToFour();
  }

  /** A path id names its row in whatever spelling uuid input accepts:
      each digit in either case, braces, any permitted hyphenation. */
  lemma GetAcceptsEverySpelling(s: Store, key: Uuid, sp: Spelling)
    requires key in s.rows
    ensures GetProduct(s, Spell(key, sp), None) == Response(StatusOK, One(s.rows[key]), s)
  {
    ParseSpell(key, sp);
  }

  /** With no store fault, a read answers 200 exactly when its id is a
      spelling of the UUID of some row. */
  lemma GetAnswersSpellings(s: Store, text: string)
    ensures GetProduct(s, text, None).status == StatusOK
        <==> exists key: Uuid, sp: Spelling :: key in s.rows && text == Spell(key, sp)
  {
    if GetProduct(s, text, None).status == StatusOK {
      ParseOnlySpellings(text);
      assert Parse(text).value in s.rows && text == Spell(Parse(text).value, SpellingOf(text));
    }
    if key: Uuid, sp: Spelling :| key in s.rows && text == Spell(key, sp) {
      ParseSpell(key, sp);
    }
  }

  /** A created product can be read back at once, even when it was created
      inactive. The row read back is the stored form of the record the create
      returned: same id, stock and activity, the same price unless it was
      negative zero, the same name and SKU when they fit their columns, and
      times cut to microseconds. */
  lemma GetAfterCreate(s: Store, body: Result<CreateInput, string>, freshId: Uuid, now: Time, fault: Option<string>)
    requires CreateProduct(s, body, freshId, now, fault).status == StatusCreated
    ensures var c := CreateProduct(s, body, freshId, now, fault);
            var g := GetProduct(c.store, Spell(freshId, Canonical), None);
            && g.status == StatusOK
            && StoredAs(c.body.product, g.body.product)
            && g.body.product.id == c.body.product.id
            && g.body.product.price == StoredPrice(c.body.product.price)
            && (c.body.product.price != NegativeZero ==> g.body.product.price == c.body.product.price)
            && g.body.product.stock == c.body.product.stock
            && (g.body.product.Active() <==> c.body.product.Active())
  {
    var c := CreateProduct(s, body, freshId, now, fault);
    ParseSpell(freshId, Canonical);
    StoredAsKeeps(c.body.product, c.store.rows[freshId]);
  }

  /** A soft-deleted product is still found by id, now carrying its deletion mark. */
  lemma GetAfterDelete(s: Store, id: string, now: Time, faults: Faults)
    requires DeleteProduct(s, id, now, faults).status == StatusNoContent
    ensures var d := DeleteProduct(s, id, now, faults);
            var g := GetProduct(d.store, id, None);
            && g.status == StatusOK
            && !g.body.product.Active()
            && g.body.product.deletedAt == Some(StoredTime(now))
  {
  }

  /** Deleting an already deleted product succeeds again and moves its
      deletion mark to the time of the second delete. */
  lemma DeleteTwice(s: Store, id: string, now: Time, later: Time, faults: Faults)
    requires DeleteProduct(s, id, now, faults).status == StatusNoContent
    ensures var d := DeleteProduct(s, id, now, faults);
            var d2 := DeleteProduct(d.store, id, later, Faults(None, None));
            && d2.status == StatusNoContent
            && d2.store.rows[Parse(id).value].deletedAt == Some(StoredTime(later))
  {
  }

  /** A second create whose SKU is stored as one already in use fails with a
      server error and leaves the table as the first create left it, whatever
      id the store would generate for it. SKUs that differ only in spaces past
      the column width are stored alike, so they collide too. */
  lemma SecondCreateWithSameSkuFails(
    s: Store, first: CreateInput, second: CreateInput,
    id1: Uuid, id2: Uuid, now1: Time, now2: Time, fault: Option<string>)
    requires CreateProduct(s, Success(first), id1, now1, None).status == StatusCreated
    requires second.HasRequiredFields()
    requires VarcharValue(second.sku.value, SkuMaxLength) == VarcharValue(first.sku.value, SkuMaxLength)
    ensures var c1 := CreateProduct(s, Success(first), id1, now1, None);
            var c2 := CreateProduct(c1.store, Success(second), id2, now2, fault);
            c2.status == StatusInternalServerError && c2.store == c1.store
  {
    var c1 := CreateProduct(s, Success(first), id1, now1, None);
    assert c1.store.rows[id1].sku == VarcharValue(second.sku.value, SkuMaxLength).value;
  }

  /** A successful update is visible to the next read: supplied fields carry
      their stored new values and the rest are as before. */
  lemma GetAfterUpdate(s: Store, id: string, body: Result<UpdateInput, string>, now: Time, faults: Faults)
    requires UpdateProduct(s, id, body, now, faults).status == StatusNoContent
    ensures var u := UpdateProduct(s, id, body, now, faults);
            GetProduct(u.store, id, None).body == One(Patched(s.rows[Parse(id).value], body.value, now))
  {
  }
}

=== FILE: store.dfy ===
/** The relational store the handlers delegate to, reduced to an in-memory
    table. It enforces the constraints declared on `Product`: the uuid primary
    key, the unique SKU index (which covers soft-deleted rows too) and the
    `varchar` columns. Connection failures are passed in as an optional
    message, since they come from outside the program. */
module Store {
  import opened Wrappers
  import opened Uuids
  import opened Models

  /** The unique constraints of the products table. */
  datatype Constraint = PrimaryKey | UniqueSku

  /** The columns a partial update may name. */
  datatype Field = NameField | SkuField | PriceField | StockField

  /** A value in a partial update; the handler builds a map from column name
      to an untyped value. */
  datatype Value = Text(text: string) | Number(bits: Float64Bits) | Integer(n: Int64)

  /** What a store call can report instead of a result. Only the kind of the
      error is modelled, not the driver's wording of it. */
  datatype StoreError =
    | Unavailable(detail: string)
    | InvalidUuid
    | RecordNotFound
    | DuplicateKey(constraint: Constraint)
    | ValueTooLong(field: Field)
    | InvalidText(field: Field)
    | TypeMismatch(field: Field)

  /** A partial update: the columns to set and their new values. */
  type Updates = map<Field, Value>

  /** The products table. `rows` maps each id to its row; `order` is the order
      in which a scan without ORDER BY returns the rows. The source leaves that
      order to the store; the model fixes it to insertion order. */
  datatype Store = Store(rows: map<Uuid, Product>, order: seq<Uuid>) {

    /** The table's declared constraints hold. */
    ghost predicate Valid() {
      && (forall id | id in rows :: rows[id].id == id)
      && (forall a, b | a in rows && b in rows && rows[a].sku == rows[b].sku :: a == b)
      && (forall id | id in rows :: rows[id].Storable())
      && (forall i, j | 0 <= i < j < |order| :: order[i] != order[j])
      && (forall id :: id in rows <==> id in order)
    }

    /** Every id in the scan order has a row: what a scan needs to return
        exactly the rows of its window. Implied by `Valid`. */
    ghost predicate Listed() {
      forall id | id in order :: id in rows
    }
  }

  /** Some row already uses `sku`. */
  predicate SkuTaken(rows: map<Uuid, Product>, sku: string) {
    exists id | id in rows :: rows[id].sku == sku
  }

  /** Some row other than `self` already uses `sku`. */
  predicate SkuTakenByOther(rows: map<Uuid, Product>, sku: string, self: Uuid) {
    exists id | id in rows && id != self :: rows[id].sku == sku
  }

  /** `s'` is `s` with one more row under `id`, appended to the scan order, and
      every existing row untouched. */
  ghost predicate Appended(s: Store, s': Store, id: Uuid) {
    && s'.rows.Keys == s.rows.Keys + {id}
    && (forall k | k in s.rows :: k in s'.rows && s'.rows[k] == s.rows[k])
    && s'.order == s.order + [id]
  }

  /** `s'` differs from `s` at most in the row under `id`. */
  ghost predicate OnlyRowChanged(s: Store, s': Store, id: Uuid) {
    && s'.rows.Keys == s.rows.Keys
    && s'.order == s.order
    && (forall k | k in s.rows && k != id :: s'.rows[k] == s.rows[k])
  }

  /** The number of distinct elements of a duplicate-free sequence is its length. */
  lemma {:induction false} DistinctElements<T>(xs: seq<T>)
    requires forall i, j | 0 <= i < j < |xs| :: xs[i] != xs[j]
    ensures |set x | x in xs| == |xs|
  {
    if xs != [] {
      var tail := xs[1..];
      DistinctElements(tail);
      assert (set x | x in xs) == (set x | x in tail) + {xs[0]};
      assert xs[0] !in tail by {
        forall i | 0 <= i < |tail| ensures tail[i] != xs[0] {
          assert tail[i] == xs[i + 1];
        }
      }
    }
  }

  /** In a valid table the scan order lists every row exactly once, so it is
      as long as the table. */
  lemma OrderCountsRows(s: Store)
    requires s.Valid()
    ensures |s.order| == |s.rows|
  {
    DistinctElements(s.order);
    assert s.rows.Keys == set x | x in s.order;
  }

  /** The error a `varchar` column reports for a value it cannot hold. */
  function TextError(f: Field, s: string): StoreError {
    if Nul in s then InvalidText(f) else ValueTooLong(f)
  }

  /** Looks a row up by primary key, as every by-id handler does first. The
      path text is read as uuid input, so any spelling of a stored id finds
      its row, and a text that is no uuid makes the statement fail. */
  function Find(s: Store, key: string, fault: Option<string>): (r: Result<Product, StoreError>)
    ensures r.Success? <==> fault.None? && Parse(key).Some? && Parse(key).value in s.rows
    ensures r.Success? ==> r.value == s.rows[Parse(key).value]
    ensures fault.None? && Parse(key).Some? && Parse(key).value !in s.rows ==> r == Failure(RecordNotFound)
  {
    if fault.Some? then Failure(Unavailable(fault.value))
    else match Parse(key)
      case None => Failure(InvalidUuid)
      case Some(id) => if id in s.rows then Success(s.rows[id]) else Failure(RecordNotFound)
  }

  /** The rows under `ids`, in that order, skipping ids with no row. */
  function RowsOf(rows: map<Uuid, Product>, ids: seq<Uuid>): (r: seq<Product>)
    ensures |r| <= |ids|
    ensures forall p | p in r :: exists id | id in ids && id in rows :: rows[id] == p
    ensures (forall id | id in ids :: id in rows) ==>
              |r| == |ids| && forall i | 0 <= i < |r| :: r[i] == rows[ids[i]]
  {
    if ids == [] then []
    else
      var head := if ids[0] in rows then [rows[ids[0]]] else [];
      head + RowsOf(rows, ids[1..])
  }

  /** At most `limit` ids of `order`, starting at position `offset`. */
  function Window(order: seq<Uuid>, offset: nat, limit: nat): (w: seq<Uuid>)
    ensures |w| == if offset >= |order| then 0
                   else if |order| - offset < limit then |order| - offset
                   else limit
    ensures forall i | 0 <= i < |w| :: w[i] == order[offset + i]
  {
    var lo := if offset < |order| then offset else |order|;
    var hi := if lo + limit < |order| then lo + limit else |order|;
    order[lo..hi]
  }

  /** A scan in the table's scan order that skips `offset` rows and returns
      at most `limit`. */
  function Scan(s: Store, offset: nat, limit: nat, fault: Option<string>): (r: Result<seq<Product>, StoreError>)
    ensures r.Success? <==> fault.None?
    ensures r.Success? ==> |r.value| <= limit
    ensures r.Success? && s.Listed() ==>
              && |r.value| == |Window(s.order, offset, limit)|
              && forall i | 0 <= i < |r.value| :: r.value[i] == s.rows[s.order[offset + i]]
  {
    if fault.Some? then Failure(Unavailable(fault.value))
    else Success(RowsOf(s.rows, Window(s.order, offset, limit)))
  }

  /** The outcome of a successful insert: the table afterwards, and the
      in-memory record as the insert leaves it (id and timestamps filled in). */
  datatype Inserted = Inserted(store: Store, record: Product)

  /** Inserts a row: the store generates the id, the ORM sets the timestamps
      to `now`, and the statement fails on a duplicate key or on a name or SKU
      its column cannot hold. Only the generated id is read back into the
      in-memory record, so the record keeps the text and the times as given. */
  function Insert(s: Store, p: Product, freshId: Uuid, now: Time, fault: Option<string>): (r: Result<Inserted, StoreError>)
    ensures r.Success? <==>
              && fault.None?
              && VarcharValue(p.name, NameMaxLength).Some?
              && VarcharValue(p.sku, SkuMaxLength).Some?
              && freshId !in s.rows
              && !SkuTaken(s.rows, VarcharValue(p.sku, SkuMaxLength).value)
    ensures r.Success? ==> Appended(s, r.value.store, freshId)
    ensures r.Success? ==> r.value.record == p.(id := freshId, createdAt := now, updatedAt := now)
    ensures r.Success? ==> StoredAs(r.value.record, r.value.store.rows[freshId])
    ensures r.Success? && s.Valid() ==> r.value.store.Valid()
  {
    if fault.Some? then Failure(Unavailable(fault.value))
    else
      var name := VarcharValue(p.name, NameMaxLength);
      var sku := VarcharValue(p.sku, SkuMaxLength);
      if name.None? then Failure(TextError(NameField, p.name))
      else if sku.None? then Failure(TextError(SkuField, p.sku))
      else if freshId in s.rows then Failure(DuplicateKey(PrimaryKey))
      else if SkuTaken(s.rows, sku.value) then Failure(DuplicateKey(UniqueSku))
      else
        var record := p.(id := freshId, createdAt := now, updatedAt := now);
        var row := Product(freshId, name.value, sku.value, StoredPrice(p.price), p.stock,
                           StoredTime(now), StoredTime(now), StoredMark(p.deletedAt));
        Success(Inserted(Store(s.rows[freshId := row], s.order + [freshId]), record))
  }

  /** The value `v` has the type of column `f`. */
  predicate Matches(f: Field, v: Value) {
    match f
    case NameField => v.Text?
    case SkuField => v.Text?
    case PriceField => v.Number?
    case StockField => v.Integer?
  }

  /** Every value in `u` has its column's type. */
  predicate WellTyped(u: Updates) {
    forall f | f in u :: Matches(f, u[f])
  }

  /** The first column, in declaration order, whose new value has the wrong type. */
  function Mismatch(u: Updates): (r: Option<Field>)
    ensures r.None? <==> WellTyped(u)
    ensures r.Some? ==> r.value in u && !Matches(r.value, u[r.value])
  {
    if NameField in u && !Matches(NameField, u[NameField]) then Some(NameField)
    else if SkuField in u && !Matches(SkuField, u[SkuField]) then Some(SkuField)
    else if PriceField in u && !Matches(PriceField, u[PriceField]) then Some(PriceField)
    else if StockField in u && !Matches(StockField, u[StockField]) then Some(StockField)
    else None
  }

  /** The value of column `f` in `p`. */
  function Column(p: Product, f: Field): (v: Value)
    ensures Matches(f, v)
  {
    match f
    case NameField => Text(p.name)
    case SkuField => Text(p.sku)
    case PriceField => Number(p.price)
    case StockField => Integer(p.stock)
  }

  /** `p` with the columns named in `u` set and `updatedAt` stamped. */
  function Apply(p: Product, u: Updates, stamp: Time): (q: Product)
    requires WellTyped(u)
    ensures forall f: Field :: Column(q, f) == if f in u then u[f] else Column(p, f)
    ensures q.id == p.id && q.createdAt == p.createdAt && q.deletedAt == p.deletedAt
    ensures q.updatedAt == stamp
  {
    p.(name := if NameField in u then u[NameField].text else p.name,
       sku := if SkuField in u then u[SkuField].text else p.sku,
       price := if PriceField in u then u[PriceField].bits else p.price,
       stock := if StockField in u then u[StockField].n else p.stock,
       updatedAt := stamp)
  }

  /** `u` with each value replaced by what its column stores, or the error
      of the first text its column cannot hold. */
  function CoerceUpdates(u: Updates): (r: Result<Updates, StoreError>)
    requires WellTyped(u)
    ensures r.Success? <==>
              && (NameField in u ==> VarcharValue(u[NameField].text, NameMaxLength).Some?)
              && (SkuField in u ==> VarcharValue(u[SkuField].text, SkuMaxLength).Some?)
    ensures r.Success? ==> r.value.Keys == u.Keys && WellTyped(r.value)
    ensures r.Success? && NameField in u ==>
              r.value[NameField] == Text(VarcharValue(u[NameField].text, NameMaxLength).value)
    ensures r.Success? && SkuField in u ==>
              r.value[SkuField] == Text(VarcharValue(u[SkuField].text, SkuMaxLength).value)
    ensures r.Success? && PriceField in u ==> r.value[PriceField] == Number(StoredPrice(u[PriceField].bits))
    ensures r.Success? && StockField in u ==> r.value[StockField] == u[StockField]
  {
    var name := if NameField in u then VarcharValue(u[NameField].text, NameMaxLength) else None;
    var sku := if SkuField in u then VarcharValue(u[SkuField].text, SkuMaxLength) else None;
    if NameField in u && name.None? then Failure(TextError(NameField, u[NameField].text))
    else if SkuField in u && sku.None? then Failure(TextError(SkuField, u[SkuField].text))
    else
      var u1 := if NameField in u then u[NameField := Text(name.value)] else u;
      var u2 := if SkuField in u then u1[SkuField := Text(sku.value)] else u1;
      var u3 := if PriceField in u then u2[PriceField := Number(StoredPrice(u[PriceField].bits))] else u2;
      Success(u3)
  }

  /** `s` with the row under `key` replaced by `row`. The table stays valid
      when the new row keeps its key, fits its columns and takes no other
      row's SKU. */
  function ReplaceRow(s: Store, key: Uuid, row: Product): (s': Store)
    requires key in s.rows
    ensures OnlyRowChanged(s, s', key) && s'.rows[key] == row
    ensures s.Valid() && row.id == key && row.Storable() && !SkuTakenByOther(s.rows, row.sku, key) ==>
              s'.Valid()
  {
    Store(s.rows[key := row], s.order)
  }

  /** An update the store accepts leaves a row that keeps its key, fits its
      columns and takes no other row's SKU. */
  lemma AppliedRowFits(s: Store, key: Uuid, u: Updates, stored: Updates, stamp: Time)
    requires key in s.rows && WellTyped(u) && CoerceUpdates(u) == Success(stored)
    requires !(SkuField in stored && SkuTakenByOther(s.rows, stored[SkuField].text, key))
    ensures s.Valid() ==>
              var row := Apply(s.rows[key], stored, stamp);
              row.id == key && row.Storable() && !SkuTakenByOther(s.rows, row.sku, key)
  {
    var row := Apply(s.rows[key], stored, stamp);
    assert Column(row, NameField) == if NameField in stored then stored[NameField] else Column(s.rows[key], NameField);
    assert Column(row, SkuField) == if SkuField in stored then stored[SkuField] else Column(s.rows[key], SkuField);
  }

  /** A partial update of the columns named in `u` on one row, stamping
      `updatedAt`. An id with no row matches nothing and changes nothing,
      without an error. */
  function UpdateRow(s: Store, key: Uuid, u: Updates, now: Time, fault: Option<string>): (r: Result<Store, StoreError>)
    ensures r.Success? <==>
              && fault.None?
              && WellTyped(u)
              && (key in s.rows ==>
                    && CoerceUpdates(u).Success?
                    && !(SkuField in u && SkuTakenByOther(s.rows, CoerceUpdates(u).value[SkuField].text, key)))
    ensures r.Success? ==> OnlyRowChanged(s, r.value, key)
    ensures r.Success? && key in s.rows ==>
              r.value.rows[key] == Apply(s.rows[key], CoerceUpdates(u).value, StoredTime(now))
    ensures r.Success? && key !in s.rows ==> r.value == s
    ensures r.Success? && s.Valid() ==> r.value.Valid()
  {
    if fault.Some? then Failure(Unavailable(fault.value))
    else if Mismatch(u).Some? then Failure(TypeMismatch(Mismatch(u).value))
    else if key !in s.rows then Success(s)
    else match CoerceUpdates(u)
      case Failure(e) => Failure(e)
      case Success(stored) =>
        if SkuField in stored && SkuTakenByOther(s.rows, stored[SkuField].text, key) then
          Failure(DuplicateKey(UniqueSku))
        else
          AppliedRowFits(s, key, u, stored, StoredTime(now));
          Success(ReplaceRow(s, key, Apply(s.rows[key], stored, StoredTime(now))))
  }

  /** Sets the deletion mark of one row through an ordinary column update;
      like every update it also stamps `updatedAt`. */
  function MarkDeleted(s: Store, key: Uuid, now: Time, fault: Option<string>): (r: Result<Store, StoreError>)
    ensures r.Success? <==> fault.None?
    ensures r.Success? ==> OnlyRowChanged(s, r.value, key)
    ensures r.Success? && key in s.rows ==>
              r.value.rows[key] == s.rows[key].(deletedAt := Some(StoredTime(now)), updatedAt := StoredTime(now))
    ensures r.Success? && key !in s.rows ==> r.value == s
    ensures r.Success? && s.Valid() ==> r.value.Valid()
  {
    if fault.Some? then Failure(Unavailable(fault.value))
    else if key !in s.rows then Success(s)
    else
      var stamp := StoredTime(now);
      Success(ReplaceRow(s, key, s.rows[key].(deletedAt := Some(stamp), updatedAt := stamp)))
  }
}

=== FILE: uuid.dfy ===
/** The `uuid` column type: sixteen bytes, and the texts PostgreSQL's uuid
    input reads as them. Besides the canonical lower-case `8-4-4-4-12` form it
    accepts each digit in either case, surrounding braces, and a hyphen after
    any group of four digits (so also none at all), and nothing else. */
module Uuids {
  import opened Wrappers

  type Byte = b: int | 0 <= b < 256

  type Uuid = u: seq<Byte> | |u| == 16 witness [0, 0, 0, 0, 0, 0, 0, 0, 0, 0, 0, 0, 0, 0, 0, 0]

  /** The all-zero UUID: the id of a record the store has not yet filled in. */
  const NilUuid: Uuid := [0, 0, 0, 0, 0, 0, 0, 0, 0, 0, 0, 0, 0, 0, 0, 0]

  /** The value of a hexadecimal digit of either case. */
  function HexValue(c: char): (r: Option<int>)
    ensures r.Some? ==> 0 <= r.value < 16
    ensures r.Some? <==> '0' <= c <= '9' || 'a' <= c <= 'f' || 'A' <= c <= 'F'
  {
    if '0' <= c <= '9' then Some(c as int - '0' as int)
    else if 'a' <= c <= 'f' then Some(c as int - 'a' as int + 10)
    else if 'A' <= c <= 'F' then Some(c as int - 'A' as int + 10)
    else None
  }

  /** The digit for `n`, in upper or lower case. */
  function HexDigit(n: int, upper: bool): (c: char)
    requires 0 <= n < 16
    ensures HexValue(c) == Some(n)
    ensures c != '-' && c != '{' && c != '}'
  {
    if n < 10 then ('0' as int + n) as char
    else if upper then ('A' as int + n - 10) as char
    else ('a' as int + n - 10) as char
  }

  /** A hyphen may follow byte `i` only when it ends a group of four digits
      and is not the last byte. */
  predicate HyphenAllowed(i: nat) {
    i % 2 == 1 && i < 15
  }

  /** Reads bytes `i` to 15 from `src`, each as two hex digits optionally
      followed by a hyphen where one is allowed; returns the sixteen bytes and
      the unread rest of the text. */
  function ParseBytes(src: string, i: nat, acc: seq<Byte>): (r: Option<(seq<Byte>, string)>)
    requires i <= 16 && |acc| == i
    ensures r.Some? ==> |r.value.0| == 16 && r.value.0[..i] == acc
    ensures r.Some? ==> |r.value.1| <= |src|
    decreases 16 - i
  {
    if i == 16 then Some((acc, src))
    else if |src| < 2 then None
    else
      var hi := HexValue(src[0]);
      var lo := HexValue(src[1]);
      if hi.None? || lo.None? then None
      else
        ParseBytes(SkipHyphen(src[2..], i), i + 1, acc + [hi.value * 16 + lo.value])
  }

  /** `rest` without its leading hyphen when one may follow byte `i`. */
  function SkipHyphen(rest: string, i: nat): (r: string)
    ensures |r| <= |rest|
  {
    if |rest| > 0 && rest[0] == '-' && HyphenAllowed(i) then rest[1..] else rest
  }

  /** One step of `ParseBytes`: two digits, then an optional hyphen. */
  lemma ParseStep(src: string, i: nat, acc: seq<Byte>, hi: int, lo: int, acc': seq<Byte>)
    requires i < 16 && |acc| == i && 2 <= |src|
    requires HexValue(src[0]) == Some(hi) && HexValue(src[1]) == Some(lo)
    requires acc' == acc + [hi * 16 + lo]
    ensures ParseBytes(src, i, acc) == ParseBytes(SkipHyphen(src[2..], i), i + 1, acc')
  {
  }

  /** The UUID a text names, or `None` when PostgreSQL rejects it as uuid input. */
  function Parse(text: string): (r: Option<Uuid>)
    ensures r.Some? ==> 32 <= |text|
  {
    var braces := |text| > 0 && text[0] == '{';
    var body := if braces then text[1..] else text;
    match ParseBytes(body, 0, [])
    case None => None
    case Some((u, rest)) =>
      ParseBytesLength(body, 0, []);
      if rest == (if braces then "}" else "") then Some(u) else None
  }

  /** Reading the remaining bytes consumes at least two characters per byte. */
  lemma {:induction false} ParseBytesLength(src: string, i: nat, acc: seq<Byte>)
    requires i <= 16 && |acc| == i
    ensures ParseBytes(src, i, acc).Some? ==> |ParseBytes(src, i, acc).value.1| + 2 * (16 - i) <= |src|
    decreases 16 - i
  {
    if i < 16 && 2 <= |src| && HexValue(src[0]).Some? && HexValue(src[1]).Some? {
      ParseBytesLength(SkipHyphen(src[2..], i), i + 1, acc + [HexValue(src[0]).value * 16 + HexValue(src[1]).value]);
    }
  }

  /** One way of writing a UUID: the positions (0 to 31) of the digits
      written as upper-case letters, the bytes a hyphen follows, and whether
      braces surround it. */
  datatype Spelling = Spelling(upper: set<nat>, hyphenAfter: set<nat>, braces: bool)

  /** The form the store itself returns: lower case, `8-4-4-4-12`. */
  const Canonical: Spelling := Spelling({}, {3, 5, 7, 9}, false)

  /** Byte `b` as two hex digits, each in its own case. */
  function ByteDigits(b: Byte, upperHi: bool, upperLo: bool): (d: string)
    ensures |d| == 2 && d[0] == HexDigit(b / 16, upperHi) && d[1] == HexDigit(b % 16, upperLo)
  {
    [HexDigit(b / 16, upperHi), HexDigit(b % 16, upperLo)]
  }

  /** The hyphen spelling `sp` writes after byte `i`, if any. */
  function Separator(i: nat, sp: Spelling): (h: string)
    ensures h == "" || (h == "-" && HyphenAllowed(i))
  {
    if i in sp.hyphenAfter && HyphenAllowed(i) then "-" else ""
  }

  /** Bytes `i` to 15 of `u` written in spelling `sp`. */
  function SpellBytes(u: Uuid, i: nat, sp: Spelling): (t: string)
    requires i <= 16
    ensures i < 16 ==> |t| >= 2 && t[0] == HexDigit(u[i] / 16, 2 * i in sp.upper)
    decreases 16 - i
  {
    if i == 16 then ""
    else ByteDigits(u[i], 2 * i in sp.upper, 2 * i + 1 in sp.upper) + Separator(i, sp) + SpellBytes(u, i + 1, sp)
  }

  /** `u` written in spelling `sp`. */
  function Spell(u: Uuid, sp: Spelling): string {
    if sp.braces then "{" + SpellBytes(u, 0, sp) + "}" else SpellBytes(u, 0, sp)
  }

  /** Splitting byte `i` into two digits and joining them extends the prefix
      read so far by that byte. */
  lemma ExtendPrefix(u: Uuid, i: nat)
    requires i < 16
    ensures u[..i] + [u[i] / 16 * 16 + u[i] % 16] == u[..i + 1]
  {
    var b: int := u[i];
    assert b / 16 * 16 + b % 16 == b;
  }

  /** Skipping the optional hyphen after byte `i` removes exactly the hyphen
      written there, as long as what follows does not start with another. */
  lemma SkipWrittenHyphen(hyphen: string, later: string, i: nat)
    requires hyphen == "-" ==> HyphenAllowed(i)
    requires hyphen == "" || hyphen == "-"
    requires hyphen == "" && HyphenAllowed(i) ==> later == "" || later[0] != '-'
    ensures SkipHyphen(hyphen + later, i) == later
  {
    if hyphen == "-" {
      assert (hyphen + later)[1..] == later;
    } else {
      assert hyphen + later == later;
    }
  }

  /** The first two elements of `a + b`, where `a` has two, are those of `a`
      and the rest is `b`. */
  lemma SplitAfterTwo<T>(a: seq<T>, b: seq<T>)
    requires |a| == 2
    ensures 2 <= |a + b| && (a + b)[0] == a[0] && (a + b)[1] == a[1] && (a + b)[2..] == b
  {
  }

  /** A spelling of bytes `i` to 15 starts with the two digits of byte `i`,
      and what follows them, once a permitted hyphen is skipped, spells the
      bytes after it. */
  lemma SpellBytesShape(u: Uuid, i: nat, sp: Spelling, tail: string)
    requires i < 16
    requires tail == "" || tail == "}"
    ensures var src := SpellBytes(u, i, sp) + tail;
            && 2 <= |src|
            && src[0] == HexDigit(u[i] / 16, 2 * i in sp.upper)
            && src[1] == HexDigit(u[i] % 16, 2 * i + 1 in sp.upper)
            && SkipHyphen(src[2..], i) == SpellBytes(u, i + 1, sp) + tail
  {
    var later := SpellBytes(u, i + 1, sp) + tail;
    SpellBytesUnfold(u, i, sp, tail);
    SplitAfterTwo(ByteDigits(u[i], 2 * i in sp.upper, 2 * i + 1 in sp.upper), Separator(i, sp) + later);
    SpellBytesStart(u, i + 1, sp, tail);
    SkipWrittenHyphen(Separator(i, sp), later, i);
  }

  /** One byte's digits and separator, then the rest, then the tail. */
  lemma SpellBytesUnfold(u: Uuid, i: nat, sp: Spelling, tail: string)
    requires i < 16
    ensures SpellBytes(u, i, sp) + tail
         == ByteDigits(u[i], 2 * i in sp.upper, 2 * i + 1 in sp.upper)
            + (Separator(i, sp) + (SpellBytes(u, i + 1, sp) + tail))
  {
  }

  /** A spelling of bytes from `i` on, followed by a tail, starts with a digit
      unless it is just the tail. */
  lemma SpellBytesStart(u: Uuid, i: nat, sp: Spelling, tail: string)
    requires i <= 16
    requires i < 16 || (tail == "" || tail == "}")
    ensures var t := SpellBytes(u, i, sp) + tail; t == "" || t[0] != '-'
  {
    if i < 16 {
      assert (SpellBytes(u, i, sp) + tail)[0] == HexDigit(u[i] / 16, 2 * i in sp.upper);
    } else {
      assert SpellBytes(u, i, sp) + tail == tail;
    }
  }

  /** Reading byte `i` of a spelling, and the hyphen after it if any, leaves
      the spelling of the bytes after it. */
  lemma ParseSpellStep(u: Uuid, i: nat, sp: Spelling, tail: string)
    requires i < 16
    requires tail == "" || tail == "}"
    ensures ParseBytes(SpellBytes(u, i, sp) + tail, i, u[..i])
         == ParseBytes(SpellBytes(u, i + 1, sp) + tail, i + 1, u[..i + 1])
  {
    var src := SpellBytes(u, i, sp) + tail;
    var hi, lo := u[i] / 16, u[i] % 16;
    assert 2 <= |src| && HexValue(src[0]) == Some(hi) && HexValue(src[1]) == Some(lo)
           && SkipHyphen(src[2..], i) == SpellBytes(u, i + 1, sp) + tail by {
      SpellBytesShape(u, i, sp, tail);
    }
    assert u[..i + 1] == u[..i] + [hi * 16 + lo] by {
      ExtendPrefix(u, i);
    }
    ParseStep(src, i, u[..i], hi, lo, u[..i + 1]);
  }

  /** Reading back bytes `i` to 15 of any spelling gives the bytes written. */
  lemma {:induction false} ParseSpellBytes(u: Uuid, i: nat, sp: Spelling, tail: string)
    requires i <= 16
    requires tail == "" || tail == "}"
    ensures ParseBytes(SpellBytes(u, i, sp) + tail, i, u[..i]) == Some((u, tail))
    decreases 16 - i
  {
    if i == 16 {
      assert u[..16] == u;
      assert SpellBytes(u, i, sp) + tail == tail;
    } else {
      ParseSpellStep(u, i, sp, tail);
      ParseSpellBytes(u, i + 1, sp, tail);
    }
  }

  /** `Parse` in one step: a text whose digits read as `u` and leave just
      the closing brace its opening one calls for names `u`. */
  lemma ParseReads(text: string, braces: bool, body: string, u: Uuid)
    requires braces == (|text| > 0 && text[0] == '{')
    requires body == if braces then text[1..] else text
    requires ParseBytes(body, 0, []) == Some((u, if braces then "}" else ""))
    ensures Parse(text) == Some(u)
  {
  }

  /** Every spelling names the UUID it spells: the store finds a row whatever
      digit cases, bracing and hyphenation the request uses. */
  lemma ParseSpell(u: Uuid, sp: Spelling)
    ensures Parse(Spell(u, sp)) == Some(u)
  {
    var bytes := SpellBytes(u, 0, sp);
    var text := Spell(u, sp);
    assert u[..0] == [];
    if sp.braces {
      assert text[0] == '{' && text[1..] == bytes + "}" by {
        assert text == ['{'] + (bytes + "}");
      }
      assert ParseBytes(bytes + "}", 0, []) == Some((u, "}")) by {
        ParseSpellBytes(u, 0, sp, "}");
      }
      ParseReads(text, true, bytes + "}", u);
    } else {
      assert text == bytes + "" && text[0] != '{' by {
        assert bytes + "" == bytes;
      }
      assert ParseBytes(bytes + "", 0, []) == Some((u, "")) by {
        ParseSpellBytes(u, 0, sp, "");
      }
      ParseReads(text, false, text, u);
    }
  }

  /** Whether hex digit `c` is written as an upper-case letter. */
  predicate IsUpperDigit(c: char) {
    'A' <= c <= 'F'
  }

  /** Writing a hex digit's value in that digit's own case gives it back. */
  lemma HexDigitOf(c: char)
    requires HexValue(c).Some?
    ensures HexDigit(HexValue(c).value, IsUpperDigit(c)) == c
  {
  }

  /** The spelling `ParseBytes` reads in `src` from byte `i` on: the digits
      it finds in upper case and the hyphens it skips. */
  function ReadSpelling(src: string, i: nat): (sp: Spelling)
    requires i <= 16
    ensures forall d | d in sp.upper :: 2 * i <= d
    ensures forall j | j in sp.hyphenAfter :: i <= j
    ensures !sp.braces
    decreases 16 - i
  {
    if i == 16 || |src| < 2 then Spelling({}, {}, false)
    else
      var later := ReadSpelling(SkipHyphen(src[2..], i), i + 1);
      var hi := if IsUpperDigit(src[0]) then {2 * i} else {};
      var lo := if IsUpperDigit(src[1]) then {2 * i + 1} else {};
      var hyphen := if SkipHyphen(src[2..], i) != src[2..] then {i} else {};
      Spelling(later.upper + hi + lo, later.hyphenAfter + hyphen, false)
  }

  /** A spelling of bytes `i` to 15 depends only on the digit cases and
      hyphens it has from byte `i` on. */
  lemma {:induction false} SpellBytesFrame(u: Uuid, i: nat, sp: Spelling, sp': Spelling)
    requires i <= 16
    requires forall d | 2 * i <= d :: d in sp.upper <==> d in sp'.upper
    requires forall j | i <= j :: j in sp.hyphenAfter <==> j in sp'.hyphenAfter
    ensures SpellBytes(u, i, sp) == SpellBytes(u, i, sp')
    decreases 16 - i
  {
    if i < 16 {
      SpellBytesFrame(u, i + 1, sp, sp');
    }
  }

  /** The two digits `ParseBytes` reads for byte `i` are the digits the
      spelling it reads writes for that byte. */
  lemma ReadDigits(src: string, i: nat, b: Byte)
    requires i < 16 && 2 <= |src|
    requires HexValue(src[0]).Some? && HexValue(src[1]).Some?
    requires b == HexValue(src[0]).value * 16 + HexValue(src[1]).value
    ensures var sp := ReadSpelling(src, i);
            ByteDigits(b, 2 * i in sp.upper, 2 * i + 1 in sp.upper) == src[..2]
  {
    ReadCases(src, i);
    HexDigitOf(src[0]);
    HexDigitOf(src[1]);
    SplitByte(HexValue(src[0]).value, HexValue(src[1]).value);
    assert src[..2] == [src[0], src[1]];
  }

  /** A byte's high and low digits are the digits it was made from. */
  lemma SplitByte(hi: int, lo: int)
    requires 0 <= hi < 16 && 0 <= lo < 16
    ensures (hi * 16 + lo) / 16 == hi && (hi * 16 + lo) % 16 == lo
  {
  }

  /** The spelling read from byte `i` on puts digits `2i` and `2i+1` in upper
      case exactly when the text does. */
  lemma ReadCases(src: string, i: nat)
    requires i < 16 && 2 <= |src|
    ensures var sp := ReadSpelling(src, i);
            (2 * i in sp.upper <==> IsUpperDigit(src[0]))
            && (2 * i + 1 in sp.upper <==> IsUpperDigit(src[1]))
  {
    var later := ReadSpelling(SkipHyphen(src[2..], i), i + 1);
    assert 2 * i !in later.upper && 2 * i + 1 !in later.upper;
  }

  /** The hyphen `ParseBytes` skips after byte `i` is the one the spelling it
      reads writes there. */
  lemma ReadSeparator(src: string, i: nat)
    requires i < 16 && 2 <= |src|
    ensures Separator(i, ReadSpelling(src, i)) + SkipHyphen(src[2..], i) == src[2..]
  {
    var rest := src[2..];
    if SkipHyphen(rest, i) != rest {
      assert rest == "-" + rest[1..];
    } else {
      assert i !in ReadSpelling(SkipHyphen(src[2..], i), i + 1).hyphenAfter;
    }
  }

  /** One byte of `ReadSpellingSpells`: if the text after byte `i`'s digits
      and hyphen spells the later bytes, the whole text spells bytes `i` on. */
  lemma ReadSpellingStep(src: string, i: nat, u: Uuid, rest: string)
    requires i < 16 && 2 <= |src|
    requires HexValue(src[0]).Some? && HexValue(src[1]).Some?
    requires u[i] == HexValue(src[0]).value * 16 + HexValue(src[1]).value
    requires var later := SkipHyphen(src[2..], i);
             later == SpellBytes(u, i + 1, ReadSpelling(later, i + 1)) + rest
    ensures src == SpellBytes(u, i, ReadSpelling(src, i)) + rest
  {
    var later := SkipHyphen(src[2..], i);
    var sp := ReadSpelling(src, i);
    SpellBytesFrame(u, i + 1, sp, ReadSpelling(later, i + 1));
    ReadDigits(src, i, u[i]);
    ReadSeparator(src, i);
    SpellBytesUnfold(u, i, sp, rest);
    assert src == src[..2] + src[2..];
  }

  /** When `ParseBytes` succeeds, byte `i` is written as two hex digits. */
  lemma ParsedDigits(src: string, i: nat, acc: seq<Byte>, u: Uuid, rest: string)
    requires i < 16 && |acc| == i
    requires ParseBytes(src, i, acc) == Some((u, rest))
    ensures 2 <= |src| && HexValue(src[0]).Some? && HexValue(src[1]).Some?
  {
  }

  /** What `ParseBytes` reads for byte `i` when it succeeds: the value of its
      two digits, which the returned bytes hold at `i`, and then the later bytes. */
  lemma ParsedByte(src: string, i: nat, acc: seq<Byte>, u: Uuid, rest: string)
    requires i < 16 && |acc| == i
    requires ParseBytes(src, i, acc) == Some((u, rest))
    ensures 2 <= |src| && HexValue(src[0]).Some? && HexValue(src[1]).Some?
    ensures u[i] == HexValue(src[0]).value * 16 + HexValue(src[1]).value
    ensures ParseBytes(SkipHyphen(src[2..], i), i + 1, acc + [u[i]]) == Some((u, rest))
  {
    ParsedDigits(src, i, acc, u, rest);
    var hi, lo := HexValue(src[0]).value, HexValue(src[1]).value;
    var acc' := acc + [hi * 16 + lo];
    ParseStep(src, i, acc, hi, lo, acc');
    assert ParseBytes(SkipHyphen(src[2..], i), i + 1, acc') == Some((u, rest));
    assert u[..i + 1] == acc';
    assert u[i] == u[..i + 1][i];
    assert acc + [u[i]] == acc';
  }

  /** Whatever `ParseBytes` reads from byte `i` on is the spelling, in the
      spelling it reads, of the bytes it returns, followed by the unread rest. */
  lemma {:induction false} ReadSpellingSpells(src: string, i: nat, acc: seq<Byte>, u: Uuid, rest: string)
    requires i <= 16 && |acc| == i
    requires ParseBytes(src, i, acc) == Some((u, rest))
    ensures src == SpellBytes(u, i, ReadSpelling(src, i)) + rest
    decreases 16 - i
  {
    if i == 16 {
      assert src == rest;
    } else {
      ParsedByte(src, i, acc, u, rest);
      ReadSpellingSpells(SkipHyphen(src[2..], i), i + 1, acc + [u[i]], u, rest);
      ReadSpellingStep(src, i, u, rest);
    }
  }

  /** The spelling of an accepted `text`: the one its digits and hyphens use,
      with braces when it opens with one. */
  function SpellingOf(text: string): (sp: Spelling)
    ensures sp.braces <==> |text| > 0 && text[0] == '{'
  {
    var braces := |text| > 0 && text[0] == '{';
    ReadSpelling(if braces then text[1..] else text, 0).(braces := braces)
  }

  /** A text whose digits and hyphens `ParseBytes` reads to the end, save the
      closing brace it opens with, spells the UUID read in the spelling read. */
  lemma SpellingRead(text: string, braces: bool, body: string, u: Uuid)
    requires braces == (|text| > 0 && text[0] == '{')
    requires body == if braces then text[1..] else text
    requires ParseBytes(body, 0, []) == Some((u, if braces then "}" else ""))
    ensures text == Spell(u, SpellingOf(text))
  {
    ReadSpellingSpells(body, 0, [], u, if braces then "}" else "");
    SpellBytesFrame(u, 0, ReadSpelling(body, 0), SpellingOf(text));
    SpelledText(text, braces, body, u, SpellingOf(text));
  }

  /** What `Parse` accepts: its digits and hyphens are read to the end, save
      the closing brace when the text opens with one. */
  lemma ParseAccepts(text: string)
    requires Parse(text).Some?
    ensures var braces := |text| > 0 && text[0] == '{';
            ParseBytes(if braces then text[1..] else text, 0, [])
              == Some((Parse(text).value, if braces then "}" else ""))
  {
  }

  /** Every text the uuid input accepts is a spelling of the UUID it names:
      the one with the digit cases, hyphens and braces the text uses. */
  lemma ParseOnlySpellings(text: string)
    requires Parse(text).Some?
    ensures text == Spell(Parse(text).value, SpellingOf(text))
  {
    var braces := |text| > 0 && text[0] == '{';
    ParseAccepts(text);
    SpellingRead(text, braces, if braces then text[1..] else text, Parse(text).value);
  }

  /** A text made of its opening brace, if any, then a spelling of the bytes
      in `sp` and the matching closing brace, spells the UUID in `sp`. */
  lemma SpelledText(text: string, braces: bool, body: string, u: Uuid, sp: Spelling)
    requires braces == (|text| > 0 && text[0] == '{')
    requires body == if braces then text[1..] else text
    requires sp.braces == braces
    requires body == SpellBytes(u, 0, sp) + (if braces then "}" else "")
    ensures text == Spell(u, sp)
  {
    if braces {
      Braced(text, SpellBytes(u, 0, sp));
    }
  }

  /** A text that opens with a brace and continues with `t` and a closing
      brace is `t` in braces. */
  lemma Braced(text: string, t: string)
    requires |text| > 0 && text[0] == '{' && text[1..] == t + "}"
    ensures text == "{" + t + "}"
  {
    assert text == [text[0]] + text[1..];
  }

  /** A text names `u` exactly when it is one of the spellings of `u`. */
  lemma ParseIsSpelling(text: string, u: Uuid)
    ensures Parse(text) == Some(u) <==> exists sp: Spelling :: text == Spell(u, sp)
  {
    if Parse(text) == Some(u) {
      ParseOnlySpellings(text);
    }
    if sp: Spelling :| text == Spell(u, sp) {
      ParseSpell(u, sp);
    }
  }
}

=== FILE: wrappers.dfy ===
/** Optional values and fallible results, used for JSON fields that may be
    absent and for every call that can fail. */
module Wrappers {

  /** A value that may be absent: a JSON key that is missing or null. */
  datatype Option<+T> = None | Some(value: T) {

    /** The wrapped value, or `default` when there is none. */
    function GetOr(default: T): (r: T)
      ensures Some? ==> r == value
      ensures None? ==> r == default
    {
      match this
      case Some(v) => v
      case None => default
    }
  }

  /** The outcome of a call that either produces a value or reports an error. */
  datatype Result<+T, +E> = Success(value: T) | Failure(error: E)
}
